=== FILE: README.md ===
# muncher: a Dafny model of the allocator and collector core

muncher is a conservative mark-and-sweep garbage collector for C programs.
It has its own K&R-style allocator. This project models the core of
`muncher.c` as pure functions over an immutable heap and proves what each
step keeps and what it changes. The model covers:

- `add_to_free_list`: address-ordered insertion into the circular free ring,
  with boundary-tag coalescing.
- `morecore`: growing the heap through `sbrk`. A request above
  `MIN_ALLOC_SIZE` (4096) units is replaced by `4096 / sizeof(header_t)` =
  256 units; a request of at most 4096 units is passed on unchanged.
- `munch_alloc`: request sizing, the next-fit walk from `freep`, the exact-fit
  unlink or tail split, the insertion after `usedp` in the used ring, and the
  NULL result. `Allocator.MunchAlloc` sizes the request as the code does,
  wrap-around included; `Allocator.MunchAllocIntended` is the same walk with
  the sizing the code evidently intends (see Findings).
- `scan_region`: each candidate word marks the first used block, in ring order
  from `usedp`, whose range holds it.
- `scan_heap`: one pass that rescans the payload of blocks already marked.
- `muncher_collect`: the guard on an empty used ring, the mark phase, and the
  sweep loop. The sweep keeps marked blocks with their marks cleared, hands
  unmarked ones to `add_to_free_list`, and drops the whole used ring when
  `usedp` itself is unmarked.
- `muncher_init`: the state reset and the `initted` guard.

The files are:

- `blocks.dfy` (module `Blocks`): the heap state and the invariant `Valid`.
  - A heap holds a map from block address to header, with `size` in header
    units and a `mark` bit. It also holds the free ring, a position for
    `freep`, the used ring from `usedp`, `used_memory`, the program break, and
    the `initted` flag.
  - Addresses are byte addresses on an LP64 target: a header is 16 bytes and a
    word 8 bytes. The static `base` block is at address 0.
  - A ring is a sequence in ring order; a block's `next` is its successor.
  - `Valid` says: the blocks do not overlap and lie below the break; the free
    ring is strictly ascending from `base`, so its only wrap point is its last
    entry; no two free neighbours touch; the used ring is distinct and shares
    nothing with the free ring.
  - `Units` is the set of bytes a ring's blocks cover, and `SizeSum` is their
    total size in units.
- `freelist.dfy` (module `FreeList`): `add_to_free_list`, and the reference
  slot `PredIndex` its search loop must find.
- `allocator.dfy` (module `Allocator`):
  - `num_units`, both as written and as intended, and `morecore`;
  - the carving and used-ring insertion of `munch_alloc`, and its walk;
  - `muncher_init`.
  - `sbrk` is an oracle. `gaps` lists, for each successful call in turn, how
    far above the current break the new region starts. The call after the
    last gap fails.
- `marking.dfy` (module `Marking`): `scan_region` and `scan_heap`.
  - Root regions are given as sequences of candidate words.
  - The memory image `scan_heap` reads is a map from word address to value.
- `collector.dfy` (module `Collector`): the sweep, the mark phase and
  `muncher_collect`.

Three behaviours of `muncher.c` that the model keeps as written:

- The code's containment test, `bp + 1 <= v < bp + 1 + bp->size` in header
  arithmetic, accepts words up to one header past the block's end, because
  `size` already counts the header. `Blocks.Covers` models that range.
  `scan_heap` reads payload words over the same extended range
  (`Marking.Payload`). For a block that ends at the program break, that
  range runs past the break (see Findings).
- `scan_heap` makes a single pass from `usedp->next` and never scans the
  payload of `usedp` itself. A block marked during the pass is scanned only
  if the pass has not yet gone by it. Only soundness is proved (every mark it
  sets has a justification), not reachability.
- `used_memory` grows by the requested bytes in `munch_alloc` but falls by the
  block's size in units in the sweep. The model keeps both as written.

## Model

| member | source | states |
|---|---|---|
| FreeList.PredIndex | muncher.c:49-51 | The slot for a freed block is an entry of the ring below `bp` after which every entry lies at or above `bp` |
| FreeList.FindSlot | muncher.c:49-51 | From any `freep`, the search loop stops at the reference slot: the last free block below `bp`, or the wrap point when `bp` lies beyond both ends |
| FreeList.AddToFreeList | muncher.c:46-66 | `freep` is left at the slot `p`; the used ring, `used_memory` and the break are untouched; every header that is neither `bp` nor free is unchanged |
| FreeList.AddToFreeListMembers | muncher.c:53-63 | Free afterwards are the old free blocks, less `p->next` when `bp` touches it, plus `bp` unless `p` touches `bp`; the ring stays duplicate-free |
| FreeList.AddToFreeListKeys | muncher.c:53-63 | The only headers that disappear are `p->next` when `bp` swallows it and `bp` when `p` swallows it |
| FreeList.AddToFreeListSizes | muncher.c:53-63 | When `p` touches `bp`, `p` grows by `bp`'s size (plus `p->next`'s if that merged too); otherwise `bp` grows by `p->next`'s size when they touch; every other size is unchanged |
| FreeList.AddToFreeListRing | muncher.c:46-66 | The free ring stays strictly address ordered from `base`, with its single wrap point at its end |
| FreeList.AddToFreeListCoalesced | muncher.c:53-63 | When the freed block fits the gap at its slot, no two neighbours of the new ring touch: both merges happen whenever they are due |
| FreeList.AddToFreeListValid | muncher.c:46-66 | Releasing a block that is neither free nor used keeps the whole heap invariant |
| FreeList.AddToFreeListUnits | muncher.c:46-66 | The free bytes grow by exactly `bp`'s extent and the free units by exactly `bp`'s size: coalescing loses and invents nothing |
| Allocator.NumUnitsAsWritten | muncher.c:127 | `num_units` computed in 64-bit `size_t` arithmetic, wrap-around included |
| Allocator.NumUnitsAsWrittenMod | muncher.c:127 | The unit count is the `size_t` sum `size + 15` reduced modulo 2^64, divided by 16, plus one |
| Allocator.NumUnitsAsWrittenWraps | muncher.c:127 | A request of `SIZE_MAX` bytes gets one unit, whose payload cannot hold it |
| Allocator.NumUnits | muncher.c:127 | The intended `num_units`: the least unit count whose payload, after the header, holds `size` bytes |
| Allocator.NumUnitsAgrees | muncher.c:127 | Below the last 15 sizes, the code computes the intended value |
| Allocator.MorecoreUnits | muncher.c:77-78 | `sbrk` is asked for at least one unit, never more than requested and never more than 4096. A request above 4096 units gets fewer units than it asked for, one page of bytes; every other request gets exactly what it asked for |
| Allocator.Release | muncher.c:83-85 | Adding a fresh block above the break to the free list keeps the heap valid and leaves the used ring alone. The free bytes grow by exactly that block, which was not free before |
| Allocator.Morecore | muncher.c:73-87 | `morecore` fails exactly when `sbrk` does. Otherwise the heap stays valid, the break moves past a block of the clamped size, and exactly that block's bytes and units join the free ring |
| Allocator.MorecoreUnmarked | muncher.c:73-87 | `morecore` writes no header of the used ring, so a heap with no marked used block keeps none |
| Allocator.Carve | muncher.c:131-140 | Carving leaves the used ring, `used_memory` and the break alone, moves `freep` to `prevp`, and changes no header outside the free ring |
| Allocator.CarveExact | muncher.c:131-133 | On an exact fit, `p` is unlinked whole from the free ring and no header changes |
| Allocator.CarveSplit | muncher.c:134-138 | Otherwise the free block keeps its address and shrinks by `num_units`; its tail of exactly `num_units` units, ending where the block ended, is granted |
| Allocator.CarveGrants | muncher.c:130-140 | In both cases the heap stays valid and `freep` becomes `prevp`. The granted block of `num_units` units is in neither ring, and exactly its bytes and units leave the free ring |
| Allocator.UsedInsert | muncher.c:143-148 | The used ring becomes the block alone when `usedp` is NULL, and otherwise gets it right after `usedp`. Writing `usedp->next` hands `usedp`'s mark to the new block and clears `usedp`'s own; no other header and no size changes |
| Allocator.UsedInsertUnmarked | muncher.c:143-148 | Between collections no used block is marked, and an insertion keeps it so |
| Allocator.UsedInsertFrame | muncher.c:143-148 | Linking into the used ring changes only marks: sizes, the free ring and `freep` are untouched |
| Allocator.Take | muncher.c:130-148 | A grant puts the block right after `usedp`, or makes it the whole used ring, and leaves `freep` at `prevp` |
| Allocator.TakeSpec | muncher.c:130-150 | After a grant the used ring is the block alone when `usedp` was NULL, and otherwise has the block right after `usedp` with the other links unchanged |
| Allocator.AllocFrom | muncher.c:130-157 | The walk keeps the heap valid and leaves `used_memory` and the `initted` flag alone |
| Allocator.AllocFromNull | muncher.c:130-157 | The walk returns NULL only after every `sbrk` call has been spent, with the used ring unchanged and no free block large enough |
| Allocator.AllocFromGrant | muncher.c:130-157 | A non-NULL result is a block of exactly `num_units` units, outside the free ring and new to the used ring, inserted after `usedp`. It is the next fit: the first block of at least `num_units` units after `freep` in the heap that the successful `sbrk` calls left, taken with `freep` left at its predecessor |
| Allocator.AllocFromNextFit | muncher.c:130-157 | The grant is what taking the next-fit block does to the heap after the successful `sbrk` calls: every block the walk passed was too small |
| Allocator.AllocFromUnmarked | muncher.c:130-157 | The walk, `sbrk` calls included, leaves no used block marked when none was |
| Allocator.AllocFromConserves | muncher.c:130-157 | Free units plus the granted block equal the free units before plus `MorecoreUnits(n)` for each successful `sbrk` |
| Allocator.AllocFromNoSbrk | muncher.c:130-152 | With a free block already large enough, the walk finds one before it returns to `freep`; `sbrk` is never called |
| Allocator.Munch | muncher.c:128-157 | Once the request is sized: the heap stays valid, `used_memory` grows by the requested bytes exactly when the call succeeds, and no used block becomes marked |
| Allocator.MunchAlloc | muncher.c:112-158 | `munch_alloc` as written, with the code's `num_units`: the heap stays valid, `used_memory` grows by the requested bytes exactly when the call succeeds, and no used block becomes marked |
| Allocator.MunchGrant | muncher.c:128-150 | Once the request is sized at n units, a returned pointer lies just past the header of the next-fit block of n units, inserted after `usedp` |
| Allocator.MunchAllocGrant | muncher.c:127-150 | The returned pointer lies just past the header of a block of the code's `num_units` units. That block is the next fit after `freep`, taken after the successful `sbrk` calls, and is inserted after `usedp`. Below the wrap-around its payload holds the `size` requested bytes |
| Allocator.MunchAllocOverflow | muncher.c:127-150 | For the 15 largest sizes `num_units` is 1. A non-NULL result is a bare header: the returned pointer is the block's end, so none of the `size` bytes fit. Any free block other than `base` yields it without `sbrk` |
| Allocator.MunchAllocIntended | muncher.c:127-157 | `munch_alloc` with the intended sizing: the heap stays valid and `used_memory` grows by the requested bytes exactly on success |
| Allocator.MunchAllocIntendedGrant | muncher.c:127-150 | With the intended sizing, the next-fit block always holds the `size` requested bytes past its header, for every `size` |
| Allocator.MunchAllocIntendedAgrees | muncher.c:127 | Below the last 15 sizes, the written and the intended `munch_alloc` are the same call |
| Allocator.MunchAllocNull | muncher.c:152-155 | NULL comes back only when every `sbrk` call was spent and no free block holds the code's `num_units`; the used ring is unchanged |
| Allocator.MunchAllocNoSbrk | muncher.c:130-151 | A request that some free block can satisfy succeeds without moving the break |
| Allocator.MunchAllocConserves | muncher.c:127-157 | Units are conserved across `munch_alloc`: free units plus the code's `num_units` for a returned block equal free units before plus what `sbrk` added |
| Allocator.Init | muncher.c:172-202 | After `muncher_init` the heap is initialised, and `used_memory` and the break are untouched |
| Allocator.InitIdempotent | muncher.c:176-179 | A second `muncher_init` does nothing |
| Allocator.InitForgets | muncher.c:199-201 | The first call's result does not depend on the rings held before |
| Allocator.InitValid | muncher.c:199-201 | After the first call the used ring is empty, `base` alone is the free ring and `freep`, the heap is valid, and nothing is free |
| Marking.FirstCover | muncher.c:100-108 | The do-while loop stops at a block whose range holds the word, and at no earlier one; it reports no block only when no range in the ring holds the word |
| Marking.MarkFirst | muncher.c:99-108 | One candidate word changes only marks, and only from clear to set |
| Marking.MarkFirstMarks | muncher.c:99-108 | One word sets at most one mark, on the block it hits; no mark is cleared |
| Marking.MarkAll | muncher.c:98-109 | A run of candidate words changes only marks, and only from clear to set |
| Marking.MarkAllMarks | muncher.c:98-109 | After a run of words, a block is marked exactly when it was before or some word hits it |
| Marking.ScanRegion | muncher.c:95-110 | `scan_region` changes no size, no ring and no other field, and never clears a mark |
| Marking.HitsFirst | muncher.c:100-107 | The block a word marks is exactly the first block, in ring order from `usedp`, whose range holds the word |
| Marking.ScanRegionMarks | muncher.c:95-110 | After a region scan, a block is marked exactly when it was already marked or it is, for some word, the first block from `usedp` whose range holds it |
| Marking.ScanRegionConcat | muncher.c:247-251 | Scanning the data segment and then the stack is scanning their concatenation |
| Marking.Payload | muncher.c:215-218 | As many bytes are read as the block holds: the word at every 8-byte step from just past the header up to one header past the block's end, in address order |
| Marking.PayloadIntended | muncher.c:215-217 | The corrected scan reads only the block's own payload: the word at every 8-byte step from just past the header up to the block's end |
| Marking.PayloadOverrun | muncher.c:215-217 | The scan as written reads the corrected payload and then two more words, at the block's end and 8 bytes past it |
| Marking.PayloadPastBreak | muncher.c:215-218 | For a heap block that ends at the program break, the scan as written reads the word at the break. That word lies in no block, and changing it alone changes the words scanned |
| Marking.PayloadIntendedBelowBreak | muncher.c:215-218 | For any heap block, the corrected scan reads nothing at or above the break: two memories that agree below the break give it the same words |
| Collector.PayloadOverrunExample | muncher.c:131-137 | On base plus one free block of 4 units at 16 with the break at 80, a 16-byte `munch_alloc` hands out the tail block at 48, which ends at the break. Its payload scan as written reads the word at the break |
| Marking.ScanBlock | muncher.c:212-228 | Scanning one block changes only marks, and only from clear to set |
| Marking.ScanBlockMarks | muncher.c:213-227 | A block never marks itself. An unmarked block is skipped. A mark set in the step is hit by a payload word of the scanned, marked block |
| Marking.ScanFrom | muncher.c:212-229 | The rest of the loop over the used ring changes only marks, and only from clear to set |
| Marking.ScanHeap | muncher.c:208-230 | `scan_heap` changes only marks, and only from clear to set |
| Marking.ScanHeapSound | muncher.c:208-230 | Every mark `scan_heap` sets is justified by a marked block other than `usedp` and other than the marked block itself, one of whose payload words falls in the marked block's range |
| Marking.ScanFromIdle | muncher.c:212-214 | With no marked block besides `usedp`, `scan_heap` changes nothing |
| Collector.Reclaim | muncher.c:265-269 | Sweeping a block unlinks it from the used ring and keeps the heap valid |
| Collector.ReclaimSpec | muncher.c:265-269 | `used_memory` drops by the block's size. `add_to_free_list` adds exactly its bytes and units to the free ring and leaves every other non-free header alone |
| Collector.SweepAnchor | muncher.c:271-281 | The last visit, at `usedp`, keeps the heap valid whether `usedp` is kept or swept |
| Collector.SweepFrom | muncher.c:257-282 | The sweep loop keeps the heap valid and leaves the break and the `initted` flag alone |
| Collector.SweepFromUsed | muncher.c:257-282 | From any point of the loop, the used ring ends as `usedp`, the blocks already kept and the marked blocks still ahead, when `usedp` is marked. It ends empty otherwise, and no block left in it is marked |
| Collector.SweepFromAccounts | muncher.c:257-282 | From any point of the loop, `used_memory` falls by, and the free ring gains, exactly the units and bytes of the unmarked blocks still to visit |
| Collector.Sweep | muncher.c:257-282 | The sweep keeps the heap valid. It leaves exactly the survivors of the marks in the used ring, none of them marked |
| Collector.SweepSpec | muncher.c:257-282 | The sweep keeps exactly the marked blocks, in ring order and unmarked, when `usedp` is marked, and empties the used ring otherwise. `used_memory` falls by the freed units, and the free ring gains exactly those units and bytes |
| Collector.MarkPhase | muncher.c:246-254 | The mark phase changes only marks, only from clear to set, and keeps the heap valid |
| Collector.Collect | muncher.c:238-283 | `muncher_collect` leaves a valid heap with no marked used block, and on an empty used ring changes nothing |
| Collector.CollectSweeps | muncher.c:243-282 | A collection of a non-empty used ring keeps exactly the survivors of the marks, and accounts the freed units and bytes against the state before the collection |

## Left out

- `/proc/self/stat`, `sysconf`, the thread array, `atexit` and
  `muncher_endgame` are process plumbing with no effect on the heap.
- The linker symbols `etext`/`end` and the inline assembly reading `%rbp`:
  the two root regions are given as word sequences instead.
- `barrier.h`, a lock-free stack meant for concurrent use, is not part of this
  model. Neither are the test programs under `tests/`, which only print
  process statistics.
- Pointer tagging as bit arithmetic: a link is ring order plus a separate
  `mark` boolean. `UNTAG`'s 32-bit mask `0xfffffffc` would truncate 64-bit
  addresses and is not replicated.
- Header words are not part of the memory image `scan_heap` reads. A payload
  word that happens to overlay the next block's header reads from the image,
  not from that header.
- Before the first `muncher_init`, `base.next` is NULL and the free ring does
  not exist. The model starts every allocator operation from a valid heap
  instead.
- `scan_region` with an empty used ring would dereference a NULL `usedp`. The
  guard in `muncher_collect` prevents it, and the model's `MarkPhase` requires
  a non-empty used ring.
- `sbrk` is an oracle of gaps, not a system call. The unused region between
  the old break and a gap is neither free nor used.
- The `unsigned int` width of `header_t.size` is not modelled: sizes are
  unbounded naturals, so the sums in `add_to_free_list` and the comparison
  with a 64-bit `num_units` do not wrap.
- Allocator.MunchAllocGrant: the payload bound is claimed only below the
  wrap-around of `num_units`, because above it the code grants a bare header
  (Allocator.MunchAllocOverflow).
- `used_memory` is an unbounded integer. Its `size_t` wrap-around when the
  sweep subtracts units from a byte count is not modelled, and no baseline
  property is claimed for it.
- Marking.Payload: the memory image is total. The two words the scan reads
  past a block that ends at the break read as ordinary words, zero when
  never written; the fault such a read can raise is not modelled. `ScanBlock`
  keeps the read as written, and `Marking.PayloadIntended` is the corrected
  read (see Findings).
- The 8 GB `total_memory` budget and the commented-out collection trigger in
  `munch_alloc` play no part in the code's behaviour.

## Findings

| source | as written | input that shows it | evidently intended | confidence | as-written member | corrected member |
|---|---|---|---|---|---|---|
| muncher.c:127 | `(size + sizeof(header_t) - 1)` is computed in `size_t` and wraps for the 15 largest sizes, so `num_units` becomes 1 | `size == SIZE_MAX` (2^64 - 1) yields `num_units == 1`: a bare header whose payload holds 0 bytes, yet `munch_alloc` reports success | the least unit count whose payload holds `size` bytes, or NULL for sizes that cannot be represented | not executed | Allocator.NumUnitsAsWritten, Allocator.NumUnitsAsWrittenWraps, Allocator.MunchAlloc, Allocator.MunchAllocOverflow | Allocator.NumUnits, Allocator.NumUnitsAgrees, Allocator.MunchAllocIntended, Allocator.MunchAllocIntendedGrant |
| muncher.c:215-217 | the payload loop runs `vp` up to `bp + bp->size + 1`, but `size` already counts the header, so it reads the 16 bytes past the block's end | `munch_alloc` hands out the high tail of the topmost free block, which ends at the break (muncher.c:135-137). Once that block is marked and is not `usedp`, `scan_heap` reads `[brk, brk + 16)`, outside the heap; the read faults when the break is page-aligned | stop at the block's end, `vp < bp + bp->size`, reading only the payload | not executed | Marking.Payload, Marking.PayloadOverrun, Marking.PayloadPastBreak, Collector.PayloadOverrunExample | Marking.PayloadIntended, Marking.PayloadIntendedBelowBreak |

=== FILE: allocator.dfy ===
/**
 The next-fit allocator of muncher.c: request sizing (num_units), growth of
 the heap through sbrk (morecore), the ring walk that hands out the
 high-address tail of the first block large enough (munch_alloc), the
 used-ring insertion, and the state reset of muncher_init.

 sbrk is an oracle: each successful call returns a fresh region starting
 `gap` bytes above the current break (another user of sbrk may have moved it
 in between); a call may also fail.
 */
module Allocator {
  import opened Blocks
  import opened FreeList

  /** 2^64: size_t arithmetic on an LP64 target wraps modulo this. */
  const SizeMod: int := 0x1_0000_0000_0000_0000
  /** MIN_ALLOC_SIZE: morecore's threshold, compared against a count of units. */
  const MinAllocSize: int := 4096

  /**
   num_units as written: (size + sizeof(header_t) - 1) is computed in size_t
   and wraps for the 15 largest request sizes.
   */
  function NumUnitsAsWritten(size: nat): (r: nat)
    requires size < SizeMod
    ensures r >= 1
  {
    var sum := size + HeaderBytes - 1;
    (if sum < SizeMod then sum else sum - SizeMod) / HeaderBytes + 1
  }

  /** The wrapped sum above is the size_t sum reduced modulo 2^64. */
  lemma NumUnitsAsWrittenMod(size: nat)
    requires size < SizeMod
    ensures NumUnitsAsWritten(size) == ((size + HeaderBytes - 1) % SizeMod) / HeaderBytes + 1
  {
    var sum := size + HeaderBytes - 1;
    if sum >= SizeMod {
      assert sum % SizeMod == sum - SizeMod;
    }
  }

  /** A request of SIZE_MAX bytes is granted a single unit: a header and no payload. */
  lemma NumUnitsAsWrittenWraps()
    ensures NumUnitsAsWritten(SizeMod - 1) == 1
    ensures HeaderBytes * (NumUnitsAsWritten(SizeMod - 1) - 1) < SizeMod - 1
  {
  }

  /**
   num_units as intended: a header plus ceil(size / sizeof(header_t)) payload
   units, computed without wrap-around. It is the least unit count whose
   payload holds `size` bytes.
   */
  function NumUnits(size: nat): (r: nat)
    ensures r >= 1
    ensures HeaderBytes * (r - 1) >= size
    ensures r == 1 || HeaderBytes * (r - 2) < size
  {
    (size + HeaderBytes - 1) / HeaderBytes + 1
  }

  /** Below the wrap-around the code computes the intended value. */
  lemma NumUnitsAgrees(size: nat)
    requires size <= SizeMod - HeaderBytes
    ensures NumUnitsAsWritten(size) == NumUnits(size)
  {
  }

  /**
   The unit count morecore asks sbrk for: requests above MIN_ALLOC_SIZE units
   shrink to a page. sbrk is never asked for more than the request, nor for
   nothing, nor for more than MIN_ALLOC_SIZE units; and a request above
   MIN_ALLOC_SIZE units gets a block too small for it.
   */
  function MorecoreUnits(n: nat): (u: nat)
    ensures n > MinAllocSize ==> HeaderBytes * u == MinAllocSize
    ensures n <= MinAllocSize ==> u == n
    ensures u <= n && u <= MinAllocSize
    ensures n >= 1 ==> u >= 1
    ensures n > MinAllocSize <==> u < n
  {
    if n > MinAllocSize then MinAllocSize / HeaderBytes else n
  }

  /** The break moves past a fresh block of u units at `up`, whose header is written. */
  function Grow(h: Heap, up: Addr, u: nat): Heap {
    h.(hdr := h.hdr[up := Header(u, false)], brk := End(up, u))
  }

  /** A fresh block above the break is in neither ring and overlaps nothing. */
  lemma GrowValid(h: Heap, up: Addr, u: nat)
    requires Valid(h) && h.brk <= up && u >= 1
    ensures var h1 := Grow(h, up, u);
            && Valid(h1) && up in h1.hdr && up != Base && up !in h1.free && up !in h1.used
            && Size(h1, up) == u
            && Units(h1, h1.free) == Units(h, h.free) && SizeSum(h1, h1.free) == SizeSum(h, h.free)
            && Extent(up, u) !! Units(h, h.free)
  {
    var h1 := Grow(h, up, u);
    assert up !in h.hdr;
    forall i | 0 <= i < |h.free|
      ensures h.free[i] != up && Size(h1, h.free[i]) == Size(h, h.free[i])
    {
    }
    forall i | 0 <= i < |h.used|
      ensures h.used[i] != up
    {
    }
    UnitsFrame(h, h1, h.free);
    UnitsDisjoint(h1, h.free, up);
  }

  /**
   The fresh block of u units at `up` placed above the break and handed to
   add_to_free_list: the heap stays valid, the used ring is untouched, and the
   free ring gains exactly the block's bytes and units, which were not free before.
   */
  function Release(h: Heap, up: Addr, u: nat): (h': Heap)
    requires Valid(h) && h.brk <= up && u >= 1
    ensures Valid(h')
    ensures h'.used == h.used && h'.usedMemory == h.usedMemory && h'.initted == h.initted
    ensures h'.brk == End(up, u)
    ensures Units(h', h'.free) == Units(h, h.free) + Extent(up, u)
    ensures Extent(up, u) !! Units(h, h.free)
    ensures SizeSum(h', h'.free) == SizeSum(h, h.free) + u
  {
    var h1 := Grow(h, up, u);
    GrowValid(h, up, u);
    AddToFreeListValid(h1, up);
    AddToFreeListUnits(h1, up);
    AddToFreeList(h1, up)
  }

  /** Neither the fresh header nor its release touches a header of the used ring. */
  lemma GrowKeepsUsed(h: Heap, up: Addr, u: nat)
    requires Valid(h) && h.brk <= up && u >= 1
    ensures var h1 := Grow(h, up, u);
            FreeRingOk(h1) && up in h1.hdr && Base < up && up !in h1.free
            && forall i :: 0 <= i < |h.used| ==> AddToFreeList(h1, up).hdr[h.used[i]] == h.hdr[h.used[i]]
  {
    var h1 := Grow(h, up, u);
    GrowValid(h, up, u);
    var h' := AddToFreeList(h1, up);
    forall i | 0 <= i < |h.used|
      ensures h'.hdr[h.used[i]] == h.hdr[h.used[i]]
    {
      var a := h.used[i];
      assert a in h.used && a in h.hdr && a != up && a !in h1.free;
    }
  }

  /**
   morecore: sbrk a region of MorecoreUnits(n) units and release it into the
   free ring. It fails exactly when sbrk does, and then changes nothing.
   */
  function Morecore(h: Heap, gap: Option<nat>, n: nat): (r: Option<Heap>)
    requires Valid(h) && n >= 1
    ensures r.Some? <==> gap.Some?
    ensures r.Some? ==>
              var h', up := r.value, h.brk + gap.value;
              && Valid(h')
              && h'.used == h.used && h'.usedMemory == h.usedMemory && h'.initted == h.initted
              && h'.brk == End(up, MorecoreUnits(n))
              && Units(h', h'.free) == Units(h, h.free) + Extent(up, MorecoreUnits(n))
              && Extent(up, MorecoreUnits(n)) !! Units(h, h.free)
              && SizeSum(h', h'.free) == SizeSum(h, h.free) + MorecoreUnits(n)
  {
    if gap.None? then None
    else
      Some(Release(h, h.brk + gap.value, MorecoreUnits(n)))
  }

  /** morecore touches no header of the used ring, so a heap with no marked used block keeps none. */
  lemma MorecoreUnmarked(h: Heap, gap: nat, n: nat)
    requires Valid(h) && n >= 1
    ensures var h' := Morecore(h, Some(gap), n).value;
            Unmarked(h) ==> Unmarked(h')
  {
    GrowKeepsUsed(h, h.brk + gap, MorecoreUnits(n));
  }

  /** A block handed out by the allocator: the state after the grant and the block's header address. */
  datatype Grant = Grant(heap: Heap, block: Addr)

  /** The base block has size zero, so the block after prevp that fits is never the ring's first entry. */
  lemma FitIsNotBase(h: Heap, prev: nat, n: nat)
    requires Valid(h) && prev < |h.free| && n >= 1 && Size(h, h.free[Succ(prev, |h.free|)]) >= n
    ensures prev + 1 < |h.free| && Succ(prev, |h.free|) == prev + 1
  {
  }

  /**
   The big-enough branch of munch_alloc on the free ring: an exact fit is
   unlinked; otherwise the block keeps its low address, shrinks by n, and
   its tail of n units becomes the granted block. freep moves to prevp.
   */
  function Carve(h: Heap, prev: nat, n: nat): (g: Grant)
    requires Valid(h) && prev < |h.free| && n >= 1 && Size(h, h.free[Succ(prev, |h.free|)]) >= n
    ensures g.heap.used == h.used && g.heap.usedMemory == h.usedMemory
    ensures g.heap.brk == h.brk && g.heap.initted == h.initted
    ensures g.heap.cursor == prev
    ensures forall b :: b in h.hdr && b !in h.free ==> b in g.heap.hdr && g.heap.hdr[b] == h.hdr[b]
  {
    FitIsNotBase(h, prev, n);
    var p := prev + 1;
    var fp := h.free[p];
    var s := Size(h, fp);
    if s == n then
      Grant(h.(free := h.free[..p] + h.free[p + 1..], cursor := prev), fp)
    else
      var a := End(fp, s - n);
      assert fp in h.free;
      SplitBlocksOk(h, fp, s - n, n);
      Grant(h.(hdr := h.hdr[fp := h.hdr[fp].(size := s - n)][a := Header(n, false)], cursor := prev), a)
  }

  /** Unlinking entry p of an address-ordered ring keeps it ordered and drops exactly that entry. */
  lemma UnlinkRing(ring: seq<Addr>, p: nat)
    requires Ascending(ring) && p < |ring|
    ensures Ascending(ring[..p] + ring[p + 1..])
    ensures forall a :: a in ring[..p] + ring[p + 1..] <==> a in ring && a != ring[p]
  {
    var r := ring[..p] + ring[p + 1..];
    forall a | a in r
      ensures a != ring[p]
    {
      var j :| 0 <= j < |r| && r[j] == a;
      assert j < p ==> r[j] == ring[j];
      assert j >= p ==> r[j] == ring[j + 1];
    }
    assert ring == ring[..p] + [ring[p]] + ring[p + 1..];
  }

  /** Unlinking a block between two free neighbours leaves a gap between them. */
  lemma UnlinkCoalesced(h: Heap, p: nat)
    requires FreeRingOk(h) && Coalesced(h) && 0 < p < |h.free| && Size(h, h.free[p]) > 0
    ensures AllIn(h, h.free[..p] + h.free[p + 1..])
    ensures Coalesced(h.(free := h.free[..p] + h.free[p + 1..]))
  {
    var r := h.free[..p] + h.free[p + 1..];
    forall j | 0 <= j < |r| - 1
      ensures End(r[j], Size(h, r[j])) < r[j + 1]
    {
      if j == p - 1 {
        assert r[j] == h.free[p - 1] && r[j + 1] == h.free[p + 1];
      } else if j < p - 1 {
        assert r[j] == h.free[j] && r[j + 1] == h.free[j + 1];
      } else {
        assert r[j] == h.free[j + 1] && r[j + 1] == h.free[j + 2];
      }
    }
  }

  /** On an exact fit the block is unlinked whole; everything else stays put. */
  lemma CarveExact(h: Heap, prev: nat, n: nat)
    requires Valid(h) && prev < |h.free| && n >= 1 && Size(h, h.free[Succ(prev, |h.free|)]) == n
    ensures prev + 1 < |h.free|
    ensures var g := Carve(h, prev, n);
            && g.block == h.free[prev + 1]
            && g.heap.free == h.free[..prev + 1] + h.free[prev + 2..] && g.heap.hdr == h.hdr
            && Valid(g.heap) && g.block in g.heap.hdr && g.block != Base
            && g.block !in g.heap.free && g.block !in g.heap.used
  {
    FitIsNotBase(h, prev, n);
    var p := prev + 1;
    UnlinkRing(h.free, p);
    UnlinkCoalesced(h, p);
    assert h.free[p] in h.free;
  }

  /** Unlinking an entry of an address-ordered ring removes exactly its bytes and its units. */
  lemma UnlinkUnits(h: Heap, ring: seq<Addr>, p: nat)
    requires BlocksOk(h) && AllIn(h, ring) && Ascending(ring) && p < |ring|
    ensures AllIn(h, ring[..p] + ring[p + 1..])
    ensures Units(h, ring) == Units(h, ring[..p] + ring[p + 1..]) + Extent(ring[p], Size(h, ring[p]))
    ensures Extent(ring[p], Size(h, ring[p])) !! Units(h, ring[..p] + ring[p + 1..])
    ensures SizeSum(h, ring) == SizeSum(h, ring[..p] + ring[p + 1..]) + Size(h, ring[p])
  {
    var fp, r := ring[p], ring[..p] + ring[p + 1..];
    UnlinkRing(ring, p);
    UnitsDisjoint(h, r, fp);
    UnitsShort(h, fp, fp);
    assert ring[p..p + 1] == [fp];
    assert r[p..p] == [];
    assert r[..p] == ring[..p] && r[p..] == ring[p + 1..];
    UnitsReplaceWindow(h, h, r, ring, p, p, p + 1, Extent(fp, Size(h, fp)), Size(h, fp));
  }

  /** On an exact fit the block's bytes, and only they, leave the free bytes. */
  lemma CarveExactUnits(h: Heap, prev: nat, n: nat)
    requires Valid(h) && prev < |h.free| && n >= 1 && Size(h, h.free[Succ(prev, |h.free|)]) == n
    ensures var g := Carve(h, prev, n);
            && AllIn(g.heap, g.heap.free)
            && Units(h, h.free) == Units(g.heap, g.heap.free) + Extent(g.block, n)
            && Extent(g.block, n) !! Units(g.heap, g.heap.free)
            && SizeSum(h, h.free) == SizeSum(g.heap, g.heap.free) + n
  {
    CarveExact(h, prev, n);
    var g := Carve(h, prev, n);
    UnlinkUnits(h, h.free, prev + 1);
    UnitsFrame(h, g.heap, g.heap.free);
  }

  /** The headers after a block of k + n units at fp hands its n-unit tail away. */
  function SplitTail(m: map<Addr, Header>, fp: Addr, k: nat, n: nat): map<Addr, Header>
    requires fp in m
  {
    m[fp := m[fp].(size := k)][End(fp, k) := Header(n, false)]
  }

  /** The tail lies strictly inside the old block, so it headed nothing before and overlaps nothing after. */
  lemma SplitBlocksOk(h: Heap, fp: Addr, k: nat, n: nat)
    requires BlocksOk(h) && fp in h.hdr && fp != Base && 0 < k && 0 < n && Size(h, fp) == k + n
    ensures End(fp, k) !in h.hdr && End(fp, k) != Base
    ensures BlocksOk(h.(hdr := SplitTail(h.hdr, fp, k, n)))
  {
    var a := End(fp, k);
    forall b | b in h.hdr
      ensures b != a
      ensures b < fp ==> End(b, Size(h, b)) <= fp
      ensures fp < b ==> End(fp, k + n) <= b
    {
    }
  }

  /** Otherwise the free block keeps its address and shrinks by n, and its tail of exactly n units is granted. */
  lemma CarveSplit(h: Heap, prev: nat, n: nat)
    requires Valid(h) && prev < |h.free| && n >= 1 && Size(h, h.free[Succ(prev, |h.free|)]) > n
    ensures prev + 1 < |h.free|
    ensures var g, fp := Carve(h, prev, n), h.free[prev + 1];
            && g.heap.free == h.free && fp in g.heap.hdr && g.block in g.heap.hdr
            && Size(g.heap, fp) == Size(h, fp) - n && g.block == End(fp, Size(g.heap, fp))
            && Size(g.heap, g.block) == n && End(g.block, n) == End(fp, Size(h, fp))
            && Valid(g.heap) && g.block != Base && g.block !in g.heap.free && g.block !in g.heap.used
  {
    FitIsNotBase(h, prev, n);
    var p := prev + 1;
    var fp := h.free[p];
    var k := Size(h, fp) - n;
    var g := Carve(h, prev, n);
    assert fp in h.free;
    SplitBlocksOk(h, fp, k, n);
    var a := End(fp, k);
    assert g.heap == h.(hdr := SplitTail(h.hdr, fp, k, n), cursor := prev);
    forall i | 0 <= i < |h.free|
      ensures h.free[i] != a
    {
    }
    forall i | 0 <= i < |h.used|
      ensures h.used[i] != a && h.used[i] != fp
    {
      assert h.used[i] in h.used;
    }
  }

  /** Handing away the tail of ring entry p removes exactly the tail's bytes and units from the ring. */
  lemma ShrinkUnits(h: Heap, h': Heap, ring: seq<Addr>, p: nat, n: nat)
    requires AllIn(h, ring) && AllIn(h', ring) && p < |ring|
    requires forall t :: 0 <= t < |ring| && t != p ==> Size(h, ring[t]) == Size(h', ring[t])
    requires Size(h, ring[p]) == Size(h', ring[p]) + n
    requires BlocksOk(h') && End(ring[p], Size(h', ring[p])) in h'.hdr && End(ring[p], Size(h', ring[p])) !in ring
    requires Size(h', End(ring[p], Size(h', ring[p]))) == n
    ensures var a := End(ring[p], Size(h', ring[p]));
            && Units(h, ring) == Units(h', ring) + Extent(a, n)
            && Extent(a, n) !! Units(h', ring)
            && SizeSum(h, ring) == SizeSum(h', ring) + n
  {
    var fp := ring[p];
    var k := Size(h', fp);
    var a := End(fp, k);
    assert ring[p..p + 1] == [fp];
    UnitsShort(h, fp, fp);
    UnitsShort(h', fp, fp);
    ExtentSplit(fp, k, n);
    UnitsReplaceWindow(h', h, ring, ring, p, p + 1, p + 1, Extent(a, n), n);
    UnitsDisjoint(h', ring, a);
  }

  /** On a split the tail's bytes, and only they, leave the free bytes. */
  lemma CarveSplitUnits(h: Heap, prev: nat, n: nat)
    requires Valid(h) && prev < |h.free| && n >= 1 && Size(h, h.free[Succ(prev, |h.free|)]) > n
    ensures var g := Carve(h, prev, n);
            && AllIn(g.heap, g.heap.free)
            && Units(h, h.free) == Units(g.heap, g.heap.free) + Extent(g.block, n)
            && Extent(g.block, n) !! Units(g.heap, g.heap.free)
            && SizeSum(h, h.free) == SizeSum(g.heap, g.heap.free) + n
  {
    CarveSplit(h, prev, n);
    var g := Carve(h, prev, n);
    var p := prev + 1;
    var fp := h.free[p];
    forall t | 0 <= t < |h.free| && t != p
      ensures Size(h, h.free[t]) == Size(g.heap, h.free[t])
    {
      assert h.free[t] != fp;
    }
    ShrinkUnits(h, g.heap, h.free, p, n);
  }

  /**
   The big-enough branch in one statement: the granted block of exactly n
   units leaves the free ring's bytes, the heap stays valid, and freep is
   prevp.
   */
  lemma CarveGrants(h: Heap, prev: nat, n: nat)
    requires Valid(h) && prev < |h.free| && n >= 1 && Size(h, h.free[Succ(prev, |h.free|)]) >= n
    ensures var g := Carve(h, prev, n);
            && Valid(g.heap) && g.block in g.heap.hdr && g.block != Base
            && g.block !in g.heap.free && g.block !in g.heap.used && Size(g.heap, g.block) == n
            && g.heap.used == h.used && g.heap.usedMemory == h.usedMemory
            && g.heap.brk == h.brk && g.heap.initted == h.initted
            && g.heap.cursor < |g.heap.free| && g.heap.free[g.heap.cursor] == h.free[prev]
            && Units(h, h.free) == Units(g.heap, g.heap.free) + Extent(g.block, n)
            && Extent(g.block, n) !! Units(g.heap, g.heap.free)
            && SizeSum(h, h.free) == SizeSum(g.heap, g.heap.free) + n
  {
    if Size(h, h.free[Succ(prev, |h.free|)]) == n {
      CarveExact(h, prev, n);
      CarveExactUnits(h, prev, n);
    } else {
      CarveSplit(h, prev, n);
      CarveSplitUnits(h, prev, n);
    }
  }

  /**
   Linking a granted block into the used ring: it becomes the whole ring
   when usedp is NULL, and otherwise goes right after usedp. Writing
   usedp->next replaces the tag bit, so the new block inherits usedp's
   mark and usedp's own mark is cleared.
   */
  function UsedInsert(h: Heap, a: Addr): (h': Heap)
    requires a in h.hdr && AllIn(h, h.used)
    ensures h'.hdr.Keys == h.hdr.Keys
    ensures h'.used == (if h.used == [] then [a] else [h.used[0], a] + h.used[1..])
    ensures h.used == [] ==> !h'.hdr[a].mark
    ensures h.used != [] && a != h.used[0] ==> h'.hdr[a].mark == h.hdr[h.used[0]].mark && !h'.hdr[h.used[0]].mark
    ensures forall b :: b in h.hdr && b != a && (h.used == [] || b != h.used[0]) ==> h'.hdr[b] == h.hdr[b]
    ensures forall b :: b in h.hdr ==> h'.hdr[b].size == h.hdr[b].size
  {
    if h.used == [] then
      h.(hdr := h.hdr[a := h.hdr[a].(mark := false)], used := [a])
    else
      var u := h.used[0];
      h.(hdr := h.hdr[a := h.hdr[a].(mark := h.hdr[u].mark)][u := h.hdr[u].(mark := false)],
         used := [u, a] + h.used[1..])
  }

  /** Between collections no used block is marked, and a fresh insertion keeps it so. */
  lemma UsedInsertUnmarked(h: Heap, a: Addr)
    requires a in h.hdr && AllIn(h, h.used)
    ensures AllIn(UsedInsert(h, a), UsedInsert(h, a).used)
    ensures Unmarked(h) ==> Unmarked(UsedInsert(h, a))
  {
  }

  /** Inserting a new entry right after the head of a ring of distinct entries. */
  lemma InsertAfterHead(ring: seq<Addr>, a: Addr)
    requires |ring| > 0 && Distinct(ring) && a !in ring
    ensures Distinct([ring[0], a] + ring[1..])
    ensures forall i :: 0 <= i < |ring| + 1 ==> ([ring[0], a] + ring[1..])[i] == a || ([ring[0], a] + ring[1..])[i] in ring
  {
    var r := [ring[0], a] + ring[1..];
    forall i | 0 <= i < |r|
      ensures r[i] == a || r[i] == ring[if i == 0 then 0 else i - 1]
    {
    }
  }

  /** Only marks change: the header map, read as sizes, is untouched. */
  lemma UsedInsertFrame(h: Heap, a: Addr)
    requires Valid(h) && a in h.hdr
    ensures var h' := UsedInsert(h, a);
            && h'.hdr.Keys == h.hdr.Keys
            && (forall b :: b in h.hdr ==> Size(h', b) == Size(h, b))
            && h'.free == h.free && h'.cursor == h.cursor && h'.brk == h.brk
            && h'.usedMemory == h.usedMemory && h'.initted == h.initted
            && BlocksOk(h') && FreeRingOk(h') && Coalesced(h')
            && Units(h', h'.free) == Units(h, h.free) && SizeSum(h', h'.free) == SizeSum(h, h.free)
  {
    SameShape(h, UsedInsert(h, a));
  }

  /** The used-ring insertion keeps the heap valid and touches no size and no free block. */
  lemma UsedInsertValid(h: Heap, a: Addr)
    requires Valid(h) && a in h.hdr && a != Base && a !in h.free && a !in h.used
    ensures Valid(UsedInsert(h, a))
  {
    var h' := UsedInsert(h, a);
    UsedInsertFrame(h, a);
    if h.used != [] {
      InsertAfterHead(h.used, a);
      forall i | 0 <= i < |h'.used|
        ensures h'.used[i] in h.hdr && h'.used[i] != Base && h'.used[i] !in h.free
      {
        if h'.used[i] != a {
          var j :| 0 <= j < |h.used| && h.used[j] == h'.used[i];
        }
      }
    }
  }

  /** The result of munch_alloc: the state after the call, the returned pointer (None is NULL), and how many sbrk calls succeeded. */
  datatype Alloc = Alloc(heap: Heap, ptr: Option<Addr>, sbrks: nat)

  /** How many steps forward a ring of `len` entries takes from position k to position c. */
  function Dist(k: nat, c: nat, len: nat): (d: nat)
    requires k < len && c < len
    ensures d < len
    ensures d == 0 <==> k == c
  {
    if k <= c then c - k else len - k + c
  }

  lemma DistStep(k: nat, c: nat, len: nat)
    requires k < len && c < len && k != c
    ensures Dist(Succ(k, len), c, len) == Dist(k, c, len) - 1
  {
  }

  lemma DistInjective(t: nat, k: nat, c: nat, len: nat)
    requires t < len && k < len && c < len && Dist(t, c, len) == Dist(k, c, len)
    ensures t == k
  {
  }

  /**
   Every block the walk has already passed is too small: the positions
   strictly farther from freep than p (the block about to be examined).
   */
  predicate PassedTooSmall(h: Heap, n: nat, prev: nat)
    requires AllIn(h, h.free) && prev < |h.free| && h.cursor < |h.free|
  {
    var len := |h.free|;
    forall t :: 0 <= t < len && Dist(t, h.cursor, len) > Dist(Succ(prev, len), h.cursor, len) ==> Size(h, h.free[t]) < n
  }

  /** Having just passed freep, the walk has seen every block. */
  lemma PassedAll(h: Heap, n: nat, prev: nat)
    requires FreeRingOk(h) && prev < |h.free| && PassedTooSmall(h, n, prev)
    requires Succ(prev, |h.free|) == h.cursor && Size(h, h.free[h.cursor]) < n
    ensures forall t :: 0 <= t < |h.free| ==> Size(h, h.free[t]) < n
  {
    forall t | 0 <= t < |h.free|
      ensures Size(h, h.free[t]) < n
    {
      if t != h.cursor {
        assert Dist(t, h.cursor, |h.free|) > 0;
      }
    }
  }

  /** One more block passed. */
  lemma PassedOneMore(h: Heap, n: nat, prev: nat)
    requires FreeRingOk(h) && prev < |h.free| && PassedTooSmall(h, n, prev)
    requires Succ(prev, |h.free|) != h.cursor && Size(h, h.free[Succ(prev, |h.free|)]) < n
    ensures PassedTooSmall(h, n, Succ(prev, |h.free|))
  {
    var len, p := |h.free|, Succ(prev, |h.free|);
    DistStep(p, h.cursor, len);
    forall t | 0 <= t < len && Dist(t, h.cursor, len) > Dist(Succ(p, len), h.cursor, len)
      ensures Size(h, h.free[t]) < n
    {
      if Dist(t, h.cursor, len) == Dist(p, h.cursor, len) {
        DistInjective(t, p, h.cursor, len);
      }
    }
  }

  /** At the start of the walk nothing has been passed. */
  lemma PassedNone(h: Heap, n: nat)
    requires FreeRingOk(h)
    ensures PassedTooSmall(h, n, h.cursor)
  {
    assert Dist(Succ(h.cursor, |h.free|), h.cursor, |h.free|) == |h.free| - 1;
  }

  /** The granted block as it leaves munch_alloc: carved from the free ring and linked into the used ring. */
  function Take(h: Heap, prev: nat, n: nat): (g: Grant)
    requires Valid(h) && prev < |h.free| && n >= 1 && Size(h, h.free[Succ(prev, |h.free|)]) >= n
    ensures g.heap.used == (if h.used == [] then [g.block] else [h.used[0], g.block] + h.used[1..])
    ensures g.heap.cursor == prev
  {
    CarveGrants(h, prev, n);
    var c := Carve(h, prev, n);
    Grant(UsedInsert(c.heap, c.block), c.block)
  }

  /** Carving touches no header of the used ring. */
  lemma CarveKeepsUsed(h: Heap, prev: nat, n: nat)
    requires Valid(h) && prev < |h.free| && n >= 1 && Size(h, h.free[Succ(prev, |h.free|)]) >= n
    ensures var c := Carve(h, prev, n);
            AllIn(c.heap, c.heap.used) && (Unmarked(h) ==> Unmarked(c.heap))
  {
    var c := Carve(h, prev, n);
    forall i | 0 <= i < |h.used|
      ensures h.used[i] in c.heap.hdr && c.heap.hdr[h.used[i]] == h.hdr[h.used[i]]
    {
      assert h.used[i] in h.used;
    }
  }

  /**
   A take leaves a valid heap whose used ring gained exactly the granted
   block right after usedp, whose free ring lost exactly its n units, and
   whose freep is prevp.
   */
  lemma TakeSpec(h: Heap, prev: nat, n: nat)
    requires Valid(h) && prev < |h.free| && n >= 1 && Size(h, h.free[Succ(prev, |h.free|)]) >= n
    ensures var g := Take(h, prev, n);
            && Valid(g.heap) && g.block in g.heap.hdr && g.block != Base && Size(g.heap, g.block) == n
            && g.block !in g.heap.free && g.block !in h.used
            && g.heap.used == (if h.used == [] then [g.block] else [h.used[0], g.block] + h.used[1..])
            && g.heap.usedMemory == h.usedMemory && g.heap.brk == h.brk && g.heap.initted == h.initted
            && g.heap.cursor < |g.heap.free| && g.heap.free[g.heap.cursor] == h.free[prev]
            && Units(h, h.free) == Units(g.heap, g.heap.free) + Extent(g.block, n)
            && Extent(g.block, n) !! Units(g.heap, g.heap.free)
            && SizeSum(h, h.free) == SizeSum(g.heap, g.heap.free) + n
            && (Unmarked(h) ==> Unmarked(g.heap))
  {
    CarveGrants(h, prev, n);
    var c := Carve(h, prev, n);
    UsedInsertFrame(c.heap, c.block);
    UsedInsertValid(c.heap, c.block);
    CarveKeepsUsed(h, prev, n);
    UsedInsertUnmarked(c.heap, c.block);
  }

  /**
   The for loop of munch_alloc, resumed with prevp at position prev. `gaps`
   are the outcomes of the coming sbrk calls: the k-th succeeds, gaps[k]
   bytes above the break, and the call after the last one fails.
   */
  function AllocFrom(h: Heap, n: nat, gaps: seq<nat>, prev: nat): (r: Alloc)
    requires Valid(h) && n >= 1 && prev < |h.free| && PassedTooSmall(h, n, prev)
    ensures Valid(r.heap)
    ensures r.heap.usedMemory == h.usedMemory && r.heap.initted == h.initted
    decreases |gaps|, Dist(Succ(prev, |h.free|), h.cursor, |h.free|)
  {
    var p := Succ(prev, |h.free|);
    if Size(h, h.free[p]) >= n then
      TakeSpec(h, prev, n);
      var g := Take(h, prev, n);
      Alloc(g.heap, Some(g.block), 0)
    else if p == h.cursor then
      if |gaps| == 0 then Alloc(h, None, 0)
      else
        var h2 := Morecore(h, Some(gaps[0]), n).value;
        PassedNone(h2, n);
        var r := AllocFrom(h2, n, gaps[1..], h2.cursor);
        r.(sbrks := r.sbrks + 1)
    else
      PassedOneMore(h, n, prev);
      DistStep(p, h.cursor, |h.free|);
      AllocFrom(h, n, gaps, p)
  }

  /**
   NULL comes back only after the walk passed every block of the ring, all
   too small, and sbrk failed with every gap used up; the used ring is then
   as it was.
   */
  lemma {:induction false} AllocFromNull(h: Heap, n: nat, gaps: seq<nat>, prev: nat)
    requires Valid(h) && n >= 1 && prev < |h.free| && PassedTooSmall(h, n, prev)
    requires AllocFrom(h, n, gaps, prev).ptr.None?
    ensures var r := AllocFrom(h, n, gaps, prev);
            && r.sbrks == |gaps| && r.heap.used == h.used
            && forall t :: 0 <= t < |r.heap.free| ==> Size(r.heap, r.heap.free[t]) < n
    decreases |gaps|, Dist(Succ(prev, |h.free|), h.cursor, |h.free|)
  {
    var p := Succ(prev, |h.free|);
    if Size(h, h.free[p]) >= n {
    } else if p == h.cursor {
      PassedAll(h, n, prev);
      if |gaps| > 0 {
        var h2 := Morecore(h, Some(gaps[0]), n).value;
        PassedNone(h2, n);
        AllocFromNull(h2, n, gaps[1..], h2.cursor);
      }
    } else {
      PassedOneMore(h, n, prev);
      DistStep(p, h.cursor, |h.free|);
      AllocFromNull(h, n, gaps, p);
    }
  }

  /** The heap after one morecore for a request of n units per gap, in order, each call succeeding with that gap. */
  function Grown(h: Heap, n: nat, gaps: seq<nat>): (h': Heap)
    requires Valid(h) && n >= 1
    ensures Valid(h')
    decreases |gaps|
  {
    if |gaps| == 0 then h else Grown(Morecore(h, Some(gaps[0]), n).value, n, gaps[1..])
  }

  /**
   Next fit: the block after position k is the first one, in ring order
   from the block after freep, of at least n units.
   */
  predicate NextFit(h: Heap, n: nat, k: nat)
    requires FreeRingOk(h)
  {
    k < |h.free| && PassedTooSmall(h, n, k) && Size(h, h.free[Succ(k, |h.free|)]) >= n
  }

  /** The grant's block: fresh, of exactly n units, linked in right after usedp. */
  lemma {:induction false} AllocFromBlock(h: Heap, n: nat, gaps: seq<nat>, prev: nat)
    requires Valid(h) && n >= 1 && prev < |h.free| && PassedTooSmall(h, n, prev)
    requires AllocFrom(h, n, gaps, prev).ptr.Some?
    ensures var r := AllocFrom(h, n, gaps, prev);
            var a := r.ptr.value;
            && a in r.heap.hdr && a != Base && Size(r.heap, a) == n
            && a !in r.heap.free && a !in h.used
            && r.heap.used == (if h.used == [] then [a] else [h.used[0], a] + h.used[1..])
    decreases |gaps|, Dist(Succ(prev, |h.free|), h.cursor, |h.free|)
  {
    var p := Succ(prev, |h.free|);
    if Size(h, h.free[p]) >= n {
      TakeSpec(h, prev, n);
    } else if p == h.cursor {
      var h2 := Morecore(h, Some(gaps[0]), n).value;
      PassedNone(h2, n);
      AllocFromBlock(h2, n, gaps[1..], h2.cursor);
    } else {
      PassedOneMore(h, n, prev);
      DistStep(p, h.cursor, |h.free|);
      AllocFromBlock(h, n, gaps, p);
    }
  }

  /**
   The block at `b`, leaving the heap `h'`, was taken as the next fit of the
   heap that `sbrks` successful sbrk calls left, with prevp at position k.
   */
  predicate FoundIn(h: Heap, n: nat, gaps: seq<nat>, sbrks: nat, h': Heap, b: Addr, k: nat)
    requires Valid(h) && n >= 1
  {
    && sbrks <= |gaps|
    && var hk := Grown(h, n, gaps[..sbrks]);
       NextFit(hk, n, k) && Take(hk, k, n) == Grant(h', b)
  }

  /** FoundIn for a walk's result. */
  predicate Found(h: Heap, n: nat, gaps: seq<nat>, r: Alloc, k: nat)
    requires Valid(h) && n >= 1 && r.ptr.Some?
  {
    FoundIn(h, n, gaps, r.sbrks, r.heap, r.ptr.value, k)
  }

  /**
   The walk handed out the block at `b` and left the heap `h'`: a block of
   exactly n units that left the free ring and now follows usedp in the used
   ring, taken as the next fit of the heap as the successful sbrk calls left it.
   */
  ghost predicate Granted(h: Heap, n: nat, gaps: seq<nat>, sbrks: nat, h': Heap, b: Addr)
    requires Valid(h) && n >= 1
  {
    Handed(h, n, h', b) && exists k :: FoundIn(h, n, gaps, sbrks, h', b, k)
  }

  /** The block at `b` of exactly n units left the free ring and now follows usedp in the used ring. */
  predicate Handed(h: Heap, n: nat, h': Heap, b: Addr) {
    && b in h'.hdr && b != Base && Size(h', b) == n
    && b !in h'.free && b !in h.used
    && h'.used == (if h.used == [] then [b] else [h.used[0], b] + h.used[1..])
  }

  /** The grant is the next fit of the heap as the successful sbrk calls left it, taken with prevp at its predecessor. */
  lemma {:induction false} AllocFromNextFit(h: Heap, n: nat, gaps: seq<nat>, prev: nat) returns (k: nat)
    requires Valid(h) && n >= 1 && prev < |h.free| && PassedTooSmall(h, n, prev)
    requires AllocFrom(h, n, gaps, prev).ptr.Some?
    ensures Found(h, n, gaps, AllocFrom(h, n, gaps, prev), k)
    decreases |gaps|, Dist(Succ(prev, |h.free|), h.cursor, |h.free|)
  {
    var p := Succ(prev, |h.free|);
    if Size(h, h.free[p]) >= n {
      k := NextFitHere(h, n, gaps, prev);
    } else if p == h.cursor {
      var h2, _ := SbrkRestart(h, n, gaps, prev);
      k := AllocFromNextFit(h2, n, gaps[1..], h2.cursor);
      NextFitSbrk(h, n, gaps, prev, h2, k);
    } else {
      PassedOneMore(h, n, prev);
      DistStep(p, h.cursor, |h.free|);
      k := AllocFromNextFit(h, n, gaps, p);
      assert AllocFrom(h, n, gaps, prev) == AllocFrom(h, n, gaps, p);
    }
  }

  /** The block after prevp fits: it is taken at once, before any sbrk. */
  lemma NextFitHere(h: Heap, n: nat, gaps: seq<nat>, prev: nat) returns (k: nat)
    requires Valid(h) && n >= 1 && prev < |h.free| && PassedTooSmall(h, n, prev)
    requires Size(h, h.free[Succ(prev, |h.free|)]) >= n
    ensures AllocFrom(h, n, gaps, prev).ptr.Some?
    ensures Found(h, n, gaps, AllocFrom(h, n, gaps, prev), k)
  {
    k := prev;
    var r := AllocFrom(h, n, gaps, prev);
    assert r == Alloc(Take(h, prev, n).heap, Some(Take(h, prev, n).block), 0);
    assert gaps[..0] == [];
    assert NextFit(h, n, prev);
  }

  /** Across a successful sbrk the walk's block is found in the grown heap. */
  lemma NextFitSbrk(h: Heap, n: nat, gaps: seq<nat>, prev: nat, h2: Heap, k: nat)
    requires Valid(h) && n >= 1 && prev < |h.free| && PassedTooSmall(h, n, prev) && |gaps| > 0
    requires h2 == Morecore(h, Some(gaps[0]), n).value && h2.cursor < |h2.free| && PassedTooSmall(h2, n, h2.cursor)
    requires var r2 := AllocFrom(h2, n, gaps[1..], h2.cursor);
             && AllocFrom(h, n, gaps, prev) == r2.(sbrks := r2.sbrks + 1)
             && r2.ptr.Some? && Found(h2, n, gaps[1..], r2, k)
    ensures Found(h, n, gaps, AllocFrom(h, n, gaps, prev), k)
  {
    var r2 := AllocFrom(h2, n, gaps[1..], h2.cursor);
    GrownStep(h, n, gaps, r2.sbrks);
  }

  /** The first of the sbrk calls a walk made, peeled off. */
  lemma GrownStep(h: Heap, n: nat, gaps: seq<nat>, m: nat)
    requires Valid(h) && n >= 1 && m < |gaps|
    ensures Grown(h, n, gaps[..m + 1]) == Grown(Morecore(h, Some(gaps[0]), n).value, n, gaps[1..][..m])
  {
    assert gaps[..m + 1][1..] == gaps[1..][..m];
  }

  /**
   A non-NULL result is a fresh block of exactly n units, linked in right
   after usedp. It is the next fit of the heap as the successful sbrk calls
   left it: the first block of at least n units in ring order after freep,
   taken with prevp at its predecessor.
   */
  lemma AllocFromGrant(h: Heap, n: nat, gaps: seq<nat>, prev: nat, r: Alloc)
    requires Valid(h) && n >= 1 && prev < |h.free| && PassedTooSmall(h, n, prev)
    requires r == AllocFrom(h, n, gaps, prev) && r.ptr.Some?
    ensures Granted(h, n, gaps, r.sbrks, r.heap, r.ptr.value)
  {
    AllocFromBlock(h, n, gaps, prev);
    var k := AllocFromNextFit(h, n, gaps, prev);
  }

  /** Units are conserved: free units plus the granted block equal the old free units plus what sbrk added. */
  lemma {:induction false} AllocFromConserves(h: Heap, n: nat, gaps: seq<nat>, prev: nat)
    requires Valid(h) && n >= 1 && prev < |h.free| && PassedTooSmall(h, n, prev)
    ensures var r := AllocFrom(h, n, gaps, prev);
            SizeSum(r.heap, r.heap.free) + (if r.ptr.Some? then n else 0) == SizeSum(h, h.free) + r.sbrks * MorecoreUnits(n)
    decreases |gaps|, Dist(Succ(prev, |h.free|), h.cursor, |h.free|), 1
  {
    var p, u := Succ(prev, |h.free|), MorecoreUnits(n);
    var r := AllocFrom(h, n, gaps, prev);
    if Size(h, h.free[p]) >= n {
      TakeSpec(h, prev, n);
      assert r.sbrks == 0;
      assert 0 * u == 0;
    } else if p == h.cursor {
      if |gaps| > 0 {
        SbrkConserves(h, n, gaps, prev, r);
      } else {
        assert r == Alloc(h, None, 0);
        assert 0 * u == 0;
      }
    } else {
      PassedOneMore(h, n, prev);
      DistStep(p, h.cursor, |h.free|);
      AllocFromConserves(h, n, gaps, p);
    }
  }

  /** AllocFromConserves across one successful sbrk. */
  lemma {:induction false} SbrkConserves(h: Heap, n: nat, gaps: seq<nat>, prev: nat, r: Alloc)
    requires Valid(h) && n >= 1 && prev < |h.free| && PassedTooSmall(h, n, prev)
    requires Size(h, h.free[Succ(prev, |h.free|)]) < n && Succ(prev, |h.free|) == h.cursor && |gaps| > 0
    requires r == AllocFrom(h, n, gaps, prev)
    ensures SizeSum(r.heap, r.heap.free) + (if r.ptr.Some? then n else 0) == SizeSum(h, h.free) + r.sbrks * MorecoreUnits(n)
    decreases |gaps|, 0, 0
  {
    var h2, r2 := SbrkRestart(h, n, gaps, prev);
    AllocFromConserves(h2, n, gaps[1..], h2.cursor);
    ConservesStep(h, h2, r, r2, n, MorecoreUnits(n));
  }

  /**
   The sbrk branch of the walk: morecore succeeded, its units joined the free
   ring, and the walk restarts after the new freep with one sbrk counted.
   */
  lemma SbrkRestart(h: Heap, n: nat, gaps: seq<nat>, prev: nat) returns (h2: Heap, r2: Alloc)
    requires Valid(h) && n >= 1 && prev < |h.free| && PassedTooSmall(h, n, prev)
    requires Size(h, h.free[Succ(prev, |h.free|)]) < n && Succ(prev, |h.free|) == h.cursor && |gaps| > 0
    ensures h2 == Morecore(h, Some(gaps[0]), n).value
    ensures Valid(h2) && h2.cursor < |h2.free| && PassedTooSmall(h2, n, h2.cursor)
    ensures SizeSum(h2, h2.free) == SizeSum(h, h.free) + MorecoreUnits(n)
    ensures r2 == AllocFrom(h2, n, gaps[1..], h2.cursor)
    ensures AllocFrom(h, n, gaps, prev) == r2.(sbrks := r2.sbrks + 1)
  {
    h2 := Morecore(h, Some(gaps[0]), n).value;
    PassedNone(h2, n);
    r2 := AllocFrom(h2, n, gaps[1..], h2.cursor);
  }

  /** The accounting of one sbrk: the units it added are one more multiple of u. */
  lemma ConservesStep(h: Heap, h2: Heap, r: Alloc, r2: Alloc, n: nat, u: nat)
    requires AllIn(h, h.free) && AllIn(h2, h2.free) && AllIn(r2.heap, r2.heap.free)
    requires r == r2.(sbrks := r2.sbrks + 1)
    requires SizeSum(h2, h2.free) == SizeSum(h, h.free) + u
    requires SizeSum(r2.heap, r2.heap.free) + (if r2.ptr.Some? then n else 0) == SizeSum(h2, h2.free) + r2.sbrks * u
    ensures SizeSum(r.heap, r.heap.free) + (if r.ptr.Some? then n else 0) == SizeSum(h, h.free) + r.sbrks * u
  {
    assert (r2.sbrks + 1) * u == r2.sbrks * u + u;
  }

  /** When some free block is already large enough the walk finds it: sbrk is never called and the break stays. */
  lemma {:induction false} AllocFromNoSbrk(h: Heap, n: nat, gaps: seq<nat>, prev: nat)
    requires Valid(h) && n >= 1 && prev < |h.free| && PassedTooSmall(h, n, prev)
    requires exists t :: 0 <= t < |h.free| && Size(h, h.free[t]) >= n
    ensures var r := AllocFrom(h, n, gaps, prev);
            r.ptr.Some? && r.sbrks == 0 && r.heap.brk == h.brk
    decreases Dist(Succ(prev, |h.free|), h.cursor, |h.free|)
  {
    var p := Succ(prev, |h.free|);
    if Size(h, h.free[p]) >= n {
      TakeSpec(h, prev, n);
    } else if p == h.cursor {
      PassedAll(h, n, prev);
      assert false;
    } else {
      PassedOneMore(h, n, prev);
      DistStep(p, h.cursor, |h.free|);
      AllocFromNoSbrk(h, n, gaps, p);
    }
  }

  /** A heap with no marked used block keeps none across the walk. */
  lemma {:induction false} AllocFromUnmarked(h: Heap, n: nat, gaps: seq<nat>, prev: nat)
    requires Valid(h) && n >= 1 && prev < |h.free| && PassedTooSmall(h, n, prev)
    ensures Unmarked(h) ==> Unmarked(AllocFrom(h, n, gaps, prev).heap)
    decreases |gaps|, Dist(Succ(prev, |h.free|), h.cursor, |h.free|)
  {
    var p := Succ(prev, |h.free|);
    if Size(h, h.free[p]) >= n {
      TakeSpec(h, prev, n);
    } else if p == h.cursor {
      if |gaps| > 0 {
        var h2, _ := SbrkRestart(h, n, gaps, prev);
        MorecoreUnmarked(h, gaps[0], n);
        AllocFromUnmarked(h2, n, gaps[1..], h2.cursor);
      }
    } else {
      PassedOneMore(h, n, prev);
      DistStep(p, h.cursor, |h.free|);
      AllocFromUnmarked(h, n, gaps, p);
    }
  }

  /**
   munch_alloc once the request is sized at n units: walk the free ring
   from freep, and on success account the request's bytes in used_memory
   and return the address just past the granted block's header. Allocation
   sets no mark: between collections the used ring stays unmarked.
   */
  function Munch(h: Heap, size: nat, n: nat, gaps: seq<nat>): (r: Alloc)
    requires Valid(h) && n >= 1
    ensures Valid(r.heap)
    ensures r.heap.initted == h.initted
    ensures r.heap.usedMemory == h.usedMemory + (if r.ptr.Some? then size else 0)
    ensures Unmarked(h) ==> Unmarked(r.heap)
  {
    PassedNone(h, n);
    AllocFromUnmarked(h, n, gaps, h.cursor);
    var a := AllocFrom(h, n, gaps, h.cursor);
    match a.ptr
    case None => a
    case Some(b) => Alloc(a.heap.(usedMemory := a.heap.usedMemory + size), Some(b + HeaderBytes), a.sbrks)
  }

  /** munch_alloc as written: the request is sized by the code's num_units, wrap-around included. */
  function MunchAlloc(h: Heap, size: nat, gaps: seq<nat>): (r: Alloc)
    requires Valid(h) && size < SizeMod
    ensures Valid(r.heap)
    ensures r.heap.initted == h.initted
    ensures r.heap.usedMemory == h.usedMemory + (if r.ptr.Some? then size else 0)
    ensures Unmarked(h) ==> Unmarked(r.heap)
  {
    Munch(h, size, NumUnitsAsWritten(size), gaps)
  }

  /** munch_alloc with the intended sizing, which never wraps. */
  function MunchAllocIntended(h: Heap, size: nat, gaps: seq<nat>): (r: Alloc)
    requires Valid(h) && size < SizeMod
    ensures Valid(r.heap)
    ensures r.heap.usedMemory == h.usedMemory + (if r.ptr.Some? then size else 0)
  {
    Munch(h, size, NumUnits(size), gaps)
  }

  /** A successful munch_alloc is the walk's grant with the payload pointer returned and the request's bytes accounted. */
  lemma MunchWalk(h: Heap, size: nat, n: nat, gaps: seq<nat>, r: Alloc) returns (a: Alloc)
    requires Valid(h) && n >= 1 && r == Munch(h, size, n, gaps) && r.ptr.Some?
    ensures PassedTooSmall(h, n, h.cursor)
    ensures a == AllocFrom(h, n, gaps, h.cursor) && a.ptr.Some?
    ensures r.heap == a.heap.(usedMemory := h.usedMemory + size)
    ensures r.ptr.value == a.ptr.value + HeaderBytes && r.sbrks == a.sbrks
  {
    PassedNone(h, n);
    a := AllocFrom(h, n, gaps, h.cursor);
  }

  /**
   A returned pointer is the payload of a block of exactly n units that
   left the free ring and now follows usedp in the used ring: the next fit
   of the heap as the successful sbrk calls left it.
   */
  lemma MunchGrant(h: Heap, size: nat, n: nat, gaps: seq<nat>, r: Alloc)
    requires Valid(h) && n >= 1 && r == Munch(h, size, n, gaps) && r.ptr.Some?
    ensures Granted(h, n, gaps, r.sbrks, r.heap.(usedMemory := h.usedMemory), r.ptr.value - HeaderBytes)
    ensures size <= HeaderBytes * (n - 1) ==> r.ptr.value + size <= End(r.ptr.value - HeaderBytes, n)
  {
    var a := MunchWalk(h, size, n, gaps, r);
    AllocFromGrant(h, n, gaps, h.cursor, a);
    assert r.heap.(usedMemory := h.usedMemory) == a.heap;
  }

  /**
   A returned pointer is the payload of a block of exactly num_units units
   that left the free ring and now follows usedp in the used ring, the next
   fit from freep. Below the wrap-around of num_units, the request's `size`
   bytes lie inside that block, past the header.
   */
  lemma MunchAllocGrant(h: Heap, size: nat, gaps: seq<nat>, r: Alloc)
    requires Valid(h) && size < SizeMod && r == MunchAlloc(h, size, gaps) && r.ptr.Some?
    ensures Granted(h, NumUnitsAsWritten(size), gaps, r.sbrks, r.heap.(usedMemory := h.usedMemory), r.ptr.value - HeaderBytes)
    ensures size <= SizeMod - HeaderBytes ==> r.ptr.value + size <= End(r.ptr.value - HeaderBytes, NumUnitsAsWritten(size))
  {
    var n := NumUnitsAsWritten(size);
    assert r == Munch(h, size, NumUnitsAsWritten(size), gaps);
    MunchGrant(h, size, n, gaps, r);
    if size <= SizeMod - HeaderBytes {
      NumUnitsAgrees(size);
    }
  }

  /**
   For the 15 largest sizes num_units wraps to a single unit: a non-NULL
   result is a block with no payload at all, and any free block but base
   is enough to produce one without calling sbrk.
   */
  lemma MunchAllocOverflow(h: Heap, size: nat, gaps: seq<nat>, r: Alloc)
    requires Valid(h) && SizeMod - HeaderBytes < size < SizeMod && r == MunchAlloc(h, size, gaps)
    ensures NumUnitsAsWritten(size) == 1
    ensures r.ptr.Some? ==>
              && Granted(h, 1, gaps, r.sbrks, r.heap.(usedMemory := h.usedMemory), r.ptr.value - HeaderBytes)
              && End(r.ptr.value - HeaderBytes, 1) == r.ptr.value < r.ptr.value + size
    ensures (exists t :: 0 <= t < |h.free| && Size(h, h.free[t]) >= 1) ==> r.ptr.Some? && r.sbrks == 0
  {
    NumUnitsWrap(size);
    assert r == Munch(h, size, NumUnitsAsWritten(size), gaps);
    if r.ptr.Some? {
      MunchGrant(h, size, 1, gaps, r);
    }
    if exists t :: 0 <= t < |h.free| && Size(h, h.free[t]) >= 1 {
      PassedNone(h, 1);
      AllocFromNoSbrk(h, 1, gaps, h.cursor);
    }
  }

  /** The 15 largest sizes all wrap to a single unit. */
  lemma NumUnitsWrap(size: nat)
    requires SizeMod - HeaderBytes < size < SizeMod
    ensures NumUnitsAsWritten(size) == 1
  {
  }

  /** With the intended sizing the request's `size` bytes always fit past the header of the granted block. */
  lemma MunchAllocIntendedGrant(h: Heap, size: nat, gaps: seq<nat>, r: Alloc)
    requires Valid(h) && size < SizeMod && r == MunchAllocIntended(h, size, gaps) && r.ptr.Some?
    ensures Granted(h, NumUnits(size), gaps, r.sbrks, r.heap.(usedMemory := h.usedMemory), r.ptr.value - HeaderBytes)
    ensures r.ptr.value + size <= End(r.ptr.value - HeaderBytes, NumUnits(size))
  {
    MunchGrant(h, size, NumUnits(size), gaps, r);
  }

  /** Below the wrap-around the intended and the written munch_alloc are the same call. */
  lemma MunchAllocIntendedAgrees(h: Heap, size: nat, gaps: seq<nat>)
    requires Valid(h) && size <= SizeMod - HeaderBytes
    ensures MunchAllocIntended(h, size, gaps) == MunchAlloc(h, size, gaps)
  {
    NumUnitsAgrees(size);
  }

  /** NULL means every sbrk call was spent, the used ring is unchanged, and no free block is large enough. */
  lemma MunchAllocNull(h: Heap, size: nat, gaps: seq<nat>)
    requires Valid(h) && size < SizeMod && MunchAlloc(h, size, gaps).ptr.None?
    ensures var r := MunchAlloc(h, size, gaps);
            && r.sbrks == |gaps| && r.heap.used == h.used
            && forall t :: 0 <= t < |r.heap.free| ==> Size(r.heap, r.heap.free[t]) < NumUnitsAsWritten(size)
  {
    var n := NumUnitsAsWritten(size);
    PassedNone(h, n);
    AllocFromNull(h, n, gaps, h.cursor);
  }

  /** With a free block already large enough, munch_alloc succeeds without calling sbrk. */
  lemma MunchAllocNoSbrk(h: Heap, size: nat, gaps: seq<nat>)
    requires Valid(h) && size < SizeMod
    requires exists t :: 0 <= t < |h.free| && Size(h, h.free[t]) >= NumUnitsAsWritten(size)
    ensures var r := MunchAlloc(h, size, gaps);
            r.ptr.Some? && r.sbrks == 0 && r.heap.brk == h.brk
  {
    var n := NumUnitsAsWritten(size);
    PassedNone(h, n);
    AllocFromNoSbrk(h, n, gaps, h.cursor);
  }

  /** Free units plus the granted block equal the free units before plus what each successful sbrk added. */
  lemma MunchAllocConserves(h: Heap, size: nat, gaps: seq<nat>)
    requires Valid(h) && size < SizeMod
    ensures var r := MunchAlloc(h, size, gaps);
            var n := NumUnitsAsWritten(size);
            SizeSum(r.heap, r.heap.free) + (if r.ptr.Some? then n else 0) == SizeSum(h, h.free) + r.sbrks * MorecoreUnits(n)
  {
    var n := NumUnitsAsWritten(size);
    PassedNone(h, n);
    AllocFromConserves(h, n, gaps, h.cursor);
    var a, r := AllocFrom(h, n, gaps, h.cursor), MunchAlloc(h, size, gaps);
    assert r.sbrks == a.sbrks && r.ptr.Some? == a.ptr.Some?;
    assert r.heap == a.heap.(usedMemory := r.heap.usedMemory);
    UnitsFrame(a.heap, r.heap, a.heap.free);
  }

  /**
   muncher_init: the first call empties the used ring and makes the free
   ring the zero-sized base block alone, with freep at base; every later
   call returns at once. used_memory and headers elsewhere are untouched.
   */
  function Init(h: Heap): (r: Heap)
    ensures r.initted
    ensures r.usedMemory == h.usedMemory && r.brk == h.brk
  {
    if h.initted then h
    else h.(initted := true, used := [], free := [Base], cursor := 0, hdr := h.hdr[Base := Header(0, false)])
  }

  /** Calling muncher_init twice is calling it once. */
  lemma InitIdempotent(h: Heap)
    ensures Init(Init(h)) == Init(h)
  {
  }

  /** The first call forgets whatever the rings held before: only the headers, the break and used_memory carry over. */
  lemma InitForgets(h: Heap, h': Heap)
    requires !h.initted && !h'.initted
    requires h.hdr == h'.hdr && h.brk == h'.brk && h.usedMemory == h'.usedMemory
    ensures Init(h) == Init(h')
  {
  }

  /** After the first call the heap is valid and empty: no used block, and base alone on the free ring as freep. */
  lemma InitValid(h: Heap)
    requires BlocksOk(h) && !h.initted
    ensures var r := Init(h);
            && Valid(r) && r.used == [] && r.free == [Base] && r.free[r.cursor] == Base
            && Units(r, r.free) == {} && SizeSum(r, r.free) == 0
  {
    var r := Init(h);
    UnitsShort(r, Base, Base);
  }
}

=== FILE: blocks.dfy ===
/**
 The block header model shared by the free ring and the used ring of the
 muncher allocator, and the invariant every collector state keeps.

 Addresses are byte addresses. A block's size is counted in header-sized
 units and includes the header itself, so a block at `a` of size `n`
 covers the bytes [a, a + HeaderBytes * n). The link field of a header is
 represented by ring order (a block's `next` is its successor in the ring
 sequence) and the mark bit folded into the link is a separate boolean.
 */
module Blocks {

  /** sizeof(header_t) on an LP64 target: a 4-byte size padded to 8, plus an 8-byte link. */
  const HeaderBytes: int := 16
  /** sizeof(uintptr_t): the stride of the conservative scan. */
  const WordBytes: int := 8
  /** The static zero-sized `base` block lives in the data segment, below every heap block. */
  const Base: int := 0

  type Addr = int

  datatype Option<T> = None | Some(value: T)

  datatype Header = Header(size: nat, mark: bool)

  /**
   The allocator's global state.
   - hdr: every header written in memory that still heads a block
   - free: the free ring in ring order, starting at `base`; freep is free[cursor]
   - used: the used ring starting at usedp; the empty sequence is usedp == NULL
   - brk: the program break after the last successful sbrk of the allocator
   */
  datatype Heap = Heap(
    hdr: map<Addr, Header>,
    free: seq<Addr>,
    cursor: nat,
    used: seq<Addr>,
    usedMemory: int,
    brk: Addr,
    initted: bool)

  /** One past the last byte of a block of `size` units at `a`. */
  function End(a: Addr, size: nat): Addr {
    a + HeaderBytes * size
  }

  predicate InBlock(a: Addr, size: nat, x: Addr) {
    a <= x < End(a, size)
  }

  /** The bytes a block of `size` units at `a` occupies. */
  function Extent(a: Addr, size: nat): (e: set<Addr>)
    ensures forall x :: x in e <==> InBlock(a, size, x)
  {
    set x | a <= x < a + HeaderBytes * size && InBlock(a, size, x)
  }

  /**
   The conservative containment test: a word `v` may point into the block
   at `a` when a + 1 <= v < a + 1 + size in header arithmetic. Since `size`
   already counts the header, the accepted range runs one header past the
   block's end.
   */
  predicate Covers(a: Addr, size: nat, v: int) {
    a + HeaderBytes <= v < a + HeaderBytes * (1 + size)
  }

  function Size(h: Heap, a: Addr): nat
    requires a in h.hdr
  {
    h.hdr[a].size
  }

  predicate Marked(h: Heap, a: Addr)
    requires a in h.hdr
  {
    h.hdr[a].mark
  }

  /** The successor of position k in a ring of n entries. */
  function Succ(k: nat, n: nat): (r: nat)
    requires k < n
    ensures r < n
    ensures r == 0 <==> k == n - 1
  {
    if k + 1 == n then 0 else k + 1
  }

  /** Headers: base has size 0, every other block lies above base, below the break, and no two overlap. */
  predicate BlocksOk(h: Heap) {
    && Base in h.hdr && h.hdr[Base].size == 0
    && Base < h.brk
    && (forall a :: a in h.hdr && a != Base ==> Base < a && 0 < h.hdr[a].size && End(a, h.hdr[a].size) <= h.brk)
    && (forall a, b :: a in h.hdr && b in h.hdr && a < b ==> End(a, h.hdr[a].size) <= b)
  }

  /** Strictly ascending addresses: an address-ordered ring whose single wrap point is its last entry. */
  predicate Ascending(ring: seq<Addr>) {
    forall i, j :: 0 <= i < j < |ring| ==> ring[i] < ring[j]
  }

  predicate AllIn(h: Heap, ring: seq<Addr>) {
    forall i :: 0 <= i < |ring| ==> ring[i] in h.hdr
  }

  /** The free ring starts at base, is address ordered, and freep is one of its entries. */
  predicate FreeRingOk(h: Heap) {
    && |h.free| > 0 && h.free[0] == Base && h.cursor < |h.free|
    && Ascending(h.free)
    && AllIn(h, h.free)
  }

  /** No two ring neighbours touch: coalescing has been exhaustive. */
  predicate Coalesced(h: Heap)
    requires AllIn(h, h.free)
  {
    forall i :: 0 <= i < |h.free| - 1 ==> End(h.free[i], h.hdr[h.free[i]].size) < h.free[i + 1]
  }

  predicate Distinct(ring: seq<Addr>) {
    forall i, j :: 0 <= i < j < |ring| ==> ring[i] != ring[j]
  }

  /** The used ring holds distinct heap blocks, none of them free. */
  predicate UsedRingOk(h: Heap) {
    && Distinct(h.used)
    && AllIn(h, h.used)
    && (forall i :: 0 <= i < |h.used| ==> h.used[i] != Base && h.used[i] !in h.free)
  }

  predicate Valid(h: Heap) {
    && BlocksOk(h)
    && FreeRingOk(h)
    && Coalesced(h)
    && UsedRingOk(h)
  }

  /** No block of the used ring carries a mark: the state between collections. */
  predicate Unmarked(h: Heap)
    requires AllIn(h, h.used)
  {
    forall i :: 0 <= i < |h.used| ==> !h.hdr[h.used[i]].mark
  }

  /** The bytes covered by the blocks of `ring`. */
  function Units(h: Heap, ring: seq<Addr>): set<Addr>
    requires AllIn(h, ring)
  {
    if |ring| == 0 then {} else Units(h, ring[..|ring| - 1]) + Extent(ring[|ring| - 1], Size(h, ring[|ring| - 1]))
  }

  /** The total size in units of the blocks of `ring`. */
  function SizeSum(h: Heap, ring: seq<Addr>): int
    requires AllIn(h, ring)
  {
    if |ring| == 0 then 0 else SizeSum(h, ring[..|ring| - 1]) + Size(h, ring[|ring| - 1])
  }

  lemma {:induction false} UnitsConcat(h: Heap, x: seq<Addr>, y: seq<Addr>)
    requires AllIn(h, x) && AllIn(h, y)
    ensures AllIn(h, x + y)
    ensures Units(h, x + y) == Units(h, x) + Units(h, y)
    ensures SizeSum(h, x + y) == SizeSum(h, x) + SizeSum(h, y)
  {
    if |y| == 0 {
      assert x + y == x;
    } else {
      var y' := y[..|y| - 1];
      assert (x + y)[..|x + y| - 1] == x + y';
      UnitsConcat(h, x, y');
    }
  }

  /** Units and sizes of a ring depend only on the sizes of its own blocks. */
  lemma {:induction false} UnitsFrame(h: Heap, h': Heap, ring: seq<Addr>)
    requires AllIn(h, ring) && AllIn(h', ring)
    requires forall i :: 0 <= i < |ring| ==> Size(h, ring[i]) == Size(h', ring[i])
    ensures Units(h, ring) == Units(h', ring)
    ensures SizeSum(h, ring) == SizeSum(h', ring)
  {
    if |ring| > 0 {
      UnitsFrame(h, h', ring[..|ring| - 1]);
    }
  }

  lemma ExtentSplit(a: Addr, s1: nat, s2: nat)
    ensures Extent(a, s1 + s2) == Extent(a, s1) + Extent(End(a, s1), s2)
    ensures Extent(a, s1) !! Extent(End(a, s1), s2)
  {
  }

  lemma UnitsShort(h: Heap, x: Addr, y: Addr)
    requires x in h.hdr && y in h.hdr
    ensures AllIn(h, [x]) && AllIn(h, [x, y])
    ensures Units(h, [x]) == Extent(x, Size(h, x)) && SizeSum(h, [x]) == Size(h, x)
    ensures Units(h, [x, y]) == Extent(x, Size(h, x)) + Extent(y, Size(h, y))
    ensures SizeSum(h, [x, y]) == Size(h, x) + Size(h, y)
  {
    assert [x][..0] == [];
    assert [x, y][..1] == [x];
  }

  /** Rewriting the middle of a ring whose two ends keep their sizes changes its bytes and units only by the middle's change. */
  lemma UnitsReplace(h: Heap, h': Heap, a: seq<Addr>, m: seq<Addr>, m': seq<Addr>, b: seq<Addr>, e: set<Addr>, s: int)
    requires AllIn(h, a) && AllIn(h, m) && AllIn(h, b) && AllIn(h', a) && AllIn(h', m') && AllIn(h', b)
    requires forall t :: 0 <= t < |a| ==> Size(h, a[t]) == Size(h', a[t])
    requires forall t :: 0 <= t < |b| ==> Size(h, b[t]) == Size(h', b[t])
    requires Units(h', m') == Units(h, m) + e && SizeSum(h', m') == SizeSum(h, m) + s
    ensures AllIn(h, a + m + b) && AllIn(h', a + m' + b)
    ensures Units(h', a + m' + b) == Units(h, a + m + b) + e
    ensures SizeSum(h', a + m' + b) == SizeSum(h, a + m + b) + s
  {
    UnitsFrame(h, h', a);
    UnitsFrame(h, h', b);
    UnitsConcat(h, a, m);
    UnitsConcat(h, a + m, b);
    UnitsConcat(h', a, m');
    UnitsConcat(h', a + m', b);
  }

  lemma Pieces(s: seq<Addr>, i: nat, k: nat)
    requires i <= k <= |s|
    ensures s == s[..i] + s[i..k] + s[k..]
  {
  }

  /** UnitsReplace for a ring whose window [i, k) became [i, w). */
  lemma UnitsReplaceWindow(h: Heap, h': Heap, r: seq<Addr>, r': seq<Addr>, i: nat, k: nat, w: nat, e: set<Addr>, s: int)
    requires i <= k <= |r| && i <= w <= |r'| && r'[..i] == r[..i] && r'[w..] == r[k..]
    requires AllIn(h, r) && AllIn(h', r')
    requires forall t :: 0 <= t < i ==> Size(h, r[t]) == Size(h', r[t])
    requires forall t :: k <= t < |r| ==> Size(h, r[t]) == Size(h', r[t])
    requires AllIn(h, r[i..k]) && AllIn(h', r'[i..w])
    requires Units(h', r'[i..w]) == Units(h, r[i..k]) + e && SizeSum(h', r'[i..w]) == SizeSum(h, r[i..k]) + s
    ensures Units(h', r') == Units(h, r) + e
    ensures SizeSum(h', r') == SizeSum(h, r) + s
  {
    Pieces(r, i, k);
    Pieces(r', i, w);
    var a, b := r[..i], r[k..];
    assert forall t :: 0 <= t < |b| ==> b[t] == r[k + t];
    UnitsReplace(h, h', a, r[i..k], r'[i..w], b, e, s);
  }

  /** Distinct headers never share a byte. */
  lemma ExtentsDisjoint(h: Heap, x: Addr, y: Addr)
    requires BlocksOk(h) && x in h.hdr && y in h.hdr && x != y
    ensures Extent(x, Size(h, x)) !! Extent(y, Size(h, y))
  {
  }

  /** A block outside a ring shares no byte with the ring's blocks. */
  lemma {:induction false} UnitsDisjoint(h: Heap, ring: seq<Addr>, x: Addr)
    requires BlocksOk(h) && AllIn(h, ring) && x in h.hdr && x !in ring
    ensures Extent(x, Size(h, x)) !! Units(h, ring)
  {
    if |ring| > 0 {
      var last := ring[|ring| - 1];
      assert last in ring;
      UnitsDisjoint(h, ring[..|ring| - 1], x);
      ExtentsDisjoint(h, x, last);
    }
  }

  /** Same blocks, same sizes, same free ring: only marks may differ, and nothing but marks follows. */
  lemma SameShape(h: Heap, h': Heap)
    requires BlocksOk(h) && FreeRingOk(h) && Coalesced(h)
    requires h'.hdr.Keys == h.hdr.Keys && forall b :: b in h.hdr ==> h'.hdr[b].size == h.hdr[b].size
    requires h'.free == h.free && h'.cursor == h.cursor && h'.brk == h.brk
    ensures BlocksOk(h') && FreeRingOk(h') && Coalesced(h')
    ensures Units(h', h'.free) == Units(h, h.free) && SizeSum(h', h'.free) == SizeSum(h, h.free)
  {
    UnitsFrame(h, h', h.free);
  }
}

=== FILE: collector.dfy ===
/**
 muncher_collect: the guard on an empty used ring, the mark phase over the
 two root regions and the heap, and the sweep.

 The sweep visits the used ring starting after usedp and ending with usedp
 itself. A marked block has its mark cleared and stays; an unmarked block
 is unlinked, used_memory drops by its size in units, and it is handed to
 add_to_free_list. Relinking keeps the predecessor's mark bit, so usedp,
 whose mark is still the one the scan left when it is visited last, is
 judged by that mark. When usedp itself is swept the whole used ring is
 dropped, even if other blocks survived.
 */
module Collector {
  import opened Blocks
  import opened FreeList
  import opened Marking
  import Allocator

  function ClearMark(h: Heap, a: Addr): (h': Heap)
    requires a in h.hdr
    ensures SameBlocks(h, h')
    ensures forall b :: b in h.hdr ==> (h'.hdr[b].mark <==> h.hdr[b].mark && b != a)
  {
    h.(hdr := h.hdr[a := h.hdr[a].(mark := false)])
  }

  /** Changing marks alone keeps a heap valid and its free units as they were. */
  lemma MarksOnly(h: Heap, h': Heap)
    requires Valid(h) && SameBlocks(h, h')
    ensures Valid(h')
    ensures Units(h', h'.free) == Units(h, h.free) && SizeSum(h', h'.free) == SizeSum(h, h.free)
  {
    SameShape(h, h');
  }

  /** The used ring becomes `rest` and used_memory drops by the size of the block at position j. */
  function Detach(h: Heap, j: nat, rest: seq<Addr>): (h0: Heap)
    requires Valid(h) && j < |h.used|
    requires Distinct(rest) && h.used[j] !in rest && forall x :: x in rest ==> x in h.used
    ensures Valid(h0) && h0.used == rest && h.used[j] !in h0.used
  {
    var h0 := h.(used := rest, usedMemory := h.usedMemory - Size(h, h.used[j]));
    assert UsedRingOk(h0) by {
      forall i | 0 <= i < |rest|
        ensures rest[i] in h.hdr && rest[i] != Base && rest[i] !in h.free
      {
        assert rest[i] in h.used;
      }
    }
    h0
  }

  /**
   Sweeping the used block at position j: the used ring becomes `rest`,
   used_memory drops by the block's size, and the block goes to
   add_to_free_list.
   */
  function Reclaim(h: Heap, j: nat, rest: seq<Addr>): (h': Heap)
    requires Valid(h) && j < |h.used|
    requires Distinct(rest) && h.used[j] !in rest && forall x :: x in rest ==> x in h.used
    ensures Valid(h') && h'.used == rest
  {
    AddToFreeListValid(Detach(h, j, rest), h.used[j]);
    AddToFreeList(Detach(h, j, rest), h.used[j])
  }

  /** What Reclaim gives back: add_to_free_list adds exactly the block's bytes to the free ring and leaves every other non-free header alone. */
  lemma ReclaimSpec(h: Heap, j: nat, rest: seq<Addr>)
    requires Valid(h) && j < |h.used|
    requires Distinct(rest) && h.used[j] !in rest && forall x :: x in rest ==> x in h.used
    ensures var h' := Reclaim(h, j, rest);
            && h'.usedMemory == h.usedMemory - Size(h, h.used[j]) && h'.brk == h.brk && h'.initted == h.initted
            && (forall x :: x in h.hdr && x != h.used[j] && x !in h.free ==> x in h'.hdr && h'.hdr[x] == h.hdr[x])
            && SizeSum(h', h'.free) == SizeSum(h, h.free) + Size(h, h.used[j])
            && Units(h', h'.free) == Units(h, h.free) + Extent(h.used[j], Size(h, h.used[j]))
  {
    var a, h0 := h.used[j], Detach(h, j, rest);
    AddToFreeListValid(h0, a);
    AddToFreeListUnits(h0, a);
    UnitsFrame(h, h0, h.free);
  }

  /** A ring with its entry at position j removed. */
  function Unlink(ring: seq<Addr>, j: nat): (r: seq<Addr>)
    requires j < |ring|
    ensures |r| == |ring| - 1
    ensures Distinct(ring) ==> Distinct(r) && ring[j] !in r
    ensures forall x :: x in r ==> x in ring
  {
    var r := ring[..j] + ring[j + 1..];
    assert forall i :: 0 <= i < |r| ==> r[i] == ring[if i < j then i else i + 1];
    r
  }

  /** The last visit of the sweep: usedp survives when marked and otherwise takes the whole ring with it. */
  function SweepAnchor(h: Heap): (h': Heap)
    requires Valid(h) && |h.used| > 0
    ensures Valid(h') && h'.brk == h.brk && h'.initted == h.initted
  {
    var u := h.used[0];
    if Marked(h, u) then
      MarksOnly(h, ClearMark(h, u));
      ClearMark(h, u)
    else
      Reclaim(h, 0, [])
  }

  /**
   The sweep loop with the blocks at positions 1 .. j-1 already visited and
   kept; the block at position j is the next one visited, and usedp at
   position 0 comes last.
   */
  function SweepFrom(h: Heap, j: nat): (h': Heap)
    requires Valid(h) && 1 <= j <= |h.used|
    ensures Valid(h') && h'.brk == h.brk && h'.initted == h.initted
    decreases |h.used| - j
  {
    if j == |h.used| then SweepAnchor(h)
    else
      var p := h.used[j];
      if Marked(h, p) then
        MarksOnly(h, ClearMark(h, p));
        SweepFrom(ClearMark(h, p), j + 1)
      else
        SweepFrom(Reclaim(h, j, Unlink(h.used, j)), j)
  }

  /** The blocks of `ring` the sweep keeps: the marked ones, in ring order. */
  function Kept(h: Heap, ring: seq<Addr>): (r: seq<Addr>)
    requires AllIn(h, ring)
    ensures |r| <= |ring|
    ensures forall i :: 0 <= i < |r| ==> r[i] in ring && Marked(h, r[i])
  {
    if |ring| == 0 then []
    else if Marked(h, ring[0]) then [ring[0]] + Kept(h, ring[1..])
    else Kept(h, ring[1..])
  }

  /** The units of the blocks of `ring` the sweep frees: the unmarked ones. */
  function SweptSize(h: Heap, ring: seq<Addr>): (n: nat)
    requires AllIn(h, ring)
  {
    if |ring| == 0 then 0
    else (if Marked(h, ring[0]) then 0 else Size(h, ring[0])) + SweptSize(h, ring[1..])
  }

  /** The bytes of the blocks of `ring` the sweep frees. */
  function SweptBytes(h: Heap, ring: seq<Addr>): set<Addr>
    requires AllIn(h, ring)
  {
    if |ring| == 0 then {}
    else (if Marked(h, ring[0]) then {} else Extent(ring[0], Size(h, ring[0]))) + SweptBytes(h, ring[1..])
  }

  /** What the sweep does with a ring depends only on the headers of the ring's blocks. */
  lemma {:induction false} SweepFrame(h: Heap, h': Heap, ring: seq<Addr>)
    requires AllIn(h, ring) && AllIn(h', ring)
    requires forall i :: 0 <= i < |ring| ==> h'.hdr[ring[i]] == h.hdr[ring[i]]
    ensures Kept(h', ring) == Kept(h, ring)
    ensures SweptSize(h', ring) == SweptSize(h, ring) && SweptBytes(h', ring) == SweptBytes(h, ring)
  {
    if |ring| > 0 {
      SweepFrame(h, h', ring[1..]);
    }
  }

  /** The order in which the sweep visits what is left of a ring from position j on: positions j.., then usedp. */
  function Visit(ring: seq<Addr>, j: nat): (v: seq<Addr>)
    requires 1 <= j <= |ring|
    ensures |v| == |ring| - j + 1 && v[|v| - 1] == ring[0]
    ensures forall i :: 0 <= i < |v| - 1 ==> v[i] == ring[j + i]
  {
    ring[j..] + ring[..1]
  }

  lemma VisitTail(ring: seq<Addr>, j: nat)
    requires 1 <= j < |ring|
    ensures Visit(ring, j)[0] == ring[j] && Visit(ring, j)[1..] == Visit(ring, j + 1)
  {
  }

  /** Removing position j >= 1 leaves the visit order of what follows it unchanged. */
  lemma UnlinkVisit(ring: seq<Addr>, j: nat)
    requires 1 <= j < |ring|
    ensures Visit(Unlink(ring, j), j) == Visit(ring, j + 1)
  {
    assert Unlink(ring, j)[j..] == ring[j + 1..];
    assert Unlink(ring, j)[..1] == ring[..1];
  }

  /** The entries still to visit after position j are used blocks other than the one at j, none of them free. */
  lemma VisitOthers(h: Heap, j: nat)
    requires Valid(h) && 1 <= j < |h.used|
    ensures var v := Visit(h.used, j + 1);
            forall i :: 0 <= i < |v| ==> v[i] in h.hdr && v[i] != h.used[j] && v[i] !in h.free
  {
    var v := Visit(h.used, j + 1);
    forall i | 0 <= i < |v|
      ensures v[i] in h.hdr && v[i] != h.used[j] && v[i] !in h.free
    {
      var k := if i < |v| - 1 then j + 1 + i else 0;
      assert v[i] == h.used[k];
    }
  }

  /** Headers of the used blocks other than the one at position j are the same in h1 as in h. */
  predicate UsedFrame(h: Heap, j: nat, h1: Heap)
    requires AllIn(h, h.used) && j < |h.used|
  {
    forall k :: 0 <= k < |h.used| && k != j ==> h.used[k] in h1.hdr && h1.hdr[h.used[k]] == h.hdr[h.used[k]]
  }

  lemma ClearMarkFrame(h: Heap, j: nat)
    requires Valid(h) && j < |h.used|
    ensures UsedFrame(h, j, ClearMark(h, h.used[j]))
  {
    forall k | 0 <= k < |h.used| && k != j
      ensures h.used[k] != h.used[j]
    {
    }
  }

  lemma ReclaimFrame(h: Heap, j: nat)
    requires Valid(h) && j < |h.used|
    ensures UsedFrame(h, j, Reclaim(h, j, Unlink(h.used, j)))
  {
    ReclaimSpec(h, j, Unlink(h.used, j));
    forall k | 0 <= k < |h.used| && k != j
      ensures h.used[k] != h.used[j] && h.used[k] !in h.free
    {
    }
  }

  /** The accounting of the blocks still to visit after position j is the same in h1 as in h. */
  lemma VisitFrame(h: Heap, j: nat, h1: Heap)
    requires AllIn(h, h.used) && 1 <= j < |h.used| && UsedFrame(h, j, h1)
    ensures AllIn(h1, Visit(h.used, j + 1))
    ensures SweptSize(h1, Visit(h.used, j + 1)) == SweptSize(h, Visit(h.used, j + 1))
    ensures SweptBytes(h1, Visit(h.used, j + 1)) == SweptBytes(h, Visit(h.used, j + 1))
  {
    var v := Visit(h.used, j + 1);
    forall i | 0 <= i < |v|
      ensures v[i] in h1.hdr && h1.hdr[v[i]] == h.hdr[v[i]]
    {
      var k := if i < |v| - 1 then j + 1 + i else 0;
      assert v[i] == h.used[k];
    }
    SweepFrame(h, h1, v);
  }

  /** Visiting position j frees its block exactly when it is unmarked. */
  lemma VisitStep(h: Heap, j: nat)
    requires AllIn(h, h.used) && 1 <= j < |h.used|
    ensures var p := h.used[j];
            && SweptSize(h, Visit(h.used, j)) == (if Marked(h, p) then 0 else Size(h, p)) + SweptSize(h, Visit(h.used, j + 1))
            && SweptBytes(h, Visit(h.used, j)) == (if Marked(h, p) then {} else Extent(p, Size(h, p))) + SweptBytes(h, Visit(h.used, j + 1))
  {
    VisitTail(h.used, j);
  }

  /**
   Accounting of a sweep from position j that ended in h': used_memory
   dropped by, and the free ring gained, exactly the units and bytes of the
   unmarked blocks among those visited (positions j.., then usedp).
   */
  predicate Accounted(h: Heap, j: nat, h': Heap)
    requires AllIn(h, h.used) && AllIn(h, h.free) && AllIn(h', h'.free) && 1 <= j <= |h.used|
  {
    var visit := Visit(h.used, j);
    && h'.usedMemory == h.usedMemory - SweptSize(h, visit)
    && SizeSum(h', h'.free) == SizeSum(h, h.free) + SweptSize(h, visit)
    && Units(h', h'.free) == Units(h, h.free) + SweptBytes(h, visit)
  }

  lemma AccountsAnchor(h: Heap)
    requires Valid(h) && |h.used| > 0
    ensures Accounted(h, |h.used|, SweepAnchor(h))
  {
    var u, visit := h.used[0], Visit(h.used, |h.used|);
    assert visit == [u] && visit[1..] == [];
    assert SweptSize(h, visit) == (if Marked(h, u) then 0 else Size(h, u));
    assert SweptBytes(h, visit) == (if Marked(h, u) then {} else Extent(u, Size(h, u)));
    if Marked(h, u) {
      MarksOnly(h, ClearMark(h, u));
    } else {
      ReclaimSpec(h, 0, []);
    }
  }

  /** h1 is h after the sweep cleared the mark of the block at position j. */
  predicate ClearedAt(h: Heap, j: nat, h1: Heap)
    requires AllIn(h, h.used) && AllIn(h, h.free) && j < |h.used|
  {
    && h1.used == h.used && UsedFrame(h, j, h1) && h.used[j] in h1.hdr && AllIn(h1, h1.free)
    && h1.usedMemory == h.usedMemory && SizeSum(h1, h1.free) == SizeSum(h, h.free) && Units(h1, h1.free) == Units(h, h.free)
  }

  /** h1 is h after the sweep unlinked and freed the block at position j. */
  predicate FreedAt(h: Heap, j: nat, h1: Heap)
    requires AllIn(h, h.used) && AllIn(h, h.free) && j < |h.used|
  {
    var p := h.used[j];
    && h1.used == Unlink(h.used, j) && UsedFrame(h, j, h1) && AllIn(h1, h1.free)
    && h1.usedMemory == h.usedMemory - Size(h, p)
    && SizeSum(h1, h1.free) == SizeSum(h, h.free) + Size(h, p)
    && Units(h1, h1.free) == Units(h, h.free) + Extent(p, Size(h, p))
  }

  lemma AccountsKeep(h: Heap, j: nat, h1: Heap, h': Heap)
    requires AllIn(h, h.used) && AllIn(h, h.free) && 1 <= j < |h.used| && Marked(h, h.used[j])
    requires ClearedAt(h, j, h1) && AllIn(h', h'.free) && Accounted(h1, j + 1, h')
    ensures Accounted(h, j, h')
  {
    VisitFrame(h, j, h1);
    VisitStep(h, j);
  }

  lemma AccountsFree(h: Heap, j: nat, h1: Heap, h': Heap)
    requires AllIn(h, h.used) && AllIn(h, h.free) && 1 <= j < |h.used| && !Marked(h, h.used[j])
    requires FreedAt(h, j, h1) && AllIn(h', h'.free) && Accounted(h1, j, h')
    ensures Accounted(h, j, h')
  {
    UnlinkVisit(h.used, j);
    VisitFrame(h, j, h1);
    VisitStep(h, j);
  }

  lemma {:induction false} SweepFromAccounts(h: Heap, j: nat)
    requires Valid(h) && 1 <= j <= |h.used|
    ensures Accounted(h, j, SweepFrom(h, j))
    decreases |h.used| - j, 1
  {
    if j == |h.used| {
      AccountsAnchor(h);
    } else if Marked(h, h.used[j]) {
      KeepAccounts(h, j);
    } else {
      FreeAccounts(h, j);
    }
  }

  /** The sweep step at a marked block: clear its mark and move on. */
  lemma SweepKeepStep(h: Heap, j: nat) returns (h1: Heap)
    requires Valid(h) && 1 <= j < |h.used| && Marked(h, h.used[j])
    ensures Valid(h1) && ClearedAt(h, j, h1) && !Marked(h1, h.used[j]) && SweepFrom(h, j) == SweepFrom(h1, j + 1)
  {
    h1 := ClearMark(h, h.used[j]);
    MarksOnly(h, h1);
    ClearMarkFrame(h, j);
  }

  /** The sweep step at an unmarked block: unlink it, free it, and visit what followed it. */
  lemma SweepFreeStep(h: Heap, j: nat) returns (h1: Heap)
    requires Valid(h) && 1 <= j < |h.used| && !Marked(h, h.used[j])
    ensures Valid(h1) && FreedAt(h, j, h1) && SweepFrom(h, j) == SweepFrom(h1, j)
  {
    h1 := Reclaim(h, j, Unlink(h.used, j));
    ReclaimSpec(h, j, Unlink(h.used, j));
    ReclaimFrame(h, j);
  }

  lemma {:induction false} KeepAccounts(h: Heap, j: nat)
    requires Valid(h) && 1 <= j < |h.used| && Marked(h, h.used[j])
    ensures Accounted(h, j, SweepFrom(h, j))
    decreases |h.used| - j, 0
  {
    var h1 := SweepKeepStep(h, j);
    var k := j + 1;
    SweepFromAccounts(h1, k);
    AccountsKeep(h, j, h1, SweepFrom(h1, k));
  }

  lemma {:induction false} FreeAccounts(h: Heap, j: nat)
    requires Valid(h) && 1 <= j < |h.used| && !Marked(h, h.used[j])
    ensures Accounted(h, j, SweepFrom(h, j))
    decreases |h.used| - j, 0
  {
    var h1 := SweepFreeStep(h, j);
    SweepFromAccounts(h1, j);
    AccountsFree(h, j, h1, SweepFrom(h1, j));
  }

  /**
   What a sweep from position j that ended in h' leaves in the used ring:
   when usedp is marked, usedp, the blocks already kept, and the marked
   blocks still to visit in ring order, all unmarked; when usedp is
   unmarked, nothing.
   */
  predicate UsedAfter(h: Heap, j: nat, h': Heap)
    requires AllIn(h, h.used) && AllIn(h', h'.used) && 1 <= j <= |h.used|
  {
    && h'.used == (if Marked(h, h.used[0]) then h.used[..j] + Kept(h, h.used[j..]) else [])
    && Unmarked(h')
  }

  /** The blocks the sweep has already kept are unmarked. */
  predicate KeptClear(h: Heap, j: nat)
    requires AllIn(h, h.used) && j <= |h.used|
  {
    forall k :: 1 <= k < j ==> !Marked(h, h.used[k])
  }

  lemma UsedAnchor(h: Heap)
    requires Valid(h) && |h.used| > 0 && KeptClear(h, |h.used|)
    ensures UsedAfter(h, |h.used|, SweepAnchor(h))
  {
    var n := |h.used|;
    assert h.used[n..] == [] && h.used[..n] == h.used;
    if Marked(h, h.used[0]) {
      AnchorKept(h);
      assert SweepAnchor(h) == ClearMark(h, h.used[0]);
    } else {
      assert SweepAnchor(h).used == [];
    }
  }

  lemma AnchorKept(h: Heap)
    requires AllIn(h, h.used) && Distinct(h.used) && |h.used| > 0 && KeptClear(h, |h.used|)
    ensures var h' := ClearMark(h, h.used[0]); AllIn(h', h'.used) && Unmarked(h')
  {
    var u, h' := h.used[0], ClearMark(h, h.used[0]);
    forall k | 0 <= k < |h.used|
      ensures !h'.hdr[h.used[k]].mark
    {
      assert k > 0 ==> h.used[k] != u;
    }
  }

  lemma KeptFrame(h: Heap, j: nat, h1: Heap)
    requires AllIn(h, h.used) && Distinct(h.used) && 1 <= j < |h.used| && UsedFrame(h, j, h1)
    ensures AllIn(h1, h.used[j + 1..])
    ensures Kept(h1, h.used[j + 1..]) == Kept(h, h.used[j + 1..])
  {
    var rest := h.used[j + 1..];
    forall i | 0 <= i < |rest|
      ensures rest[i] in h1.hdr && h1.hdr[rest[i]] == h.hdr[rest[i]]
    {
      assert rest[i] == h.used[j + 1 + i];
    }
    SweepFrame(h, h1, rest);
  }

  lemma UsedKeep(h: Heap, j: nat, h1: Heap, h': Heap)
    requires AllIn(h, h.used) && AllIn(h, h.free) && Distinct(h.used) && 1 <= j < |h.used| && Marked(h, h.used[j])
    requires ClearedAt(h, j, h1) && AllIn(h', h'.used) && UsedAfter(h1, j + 1, h')
    ensures UsedAfter(h, j, h')
  {
    var p := h.used[j];
    KeptFrame(h, j, h1);
    KeptStep(h, h.used, j);
    PrefixStep(h.used, j, Kept(h, h.used[j + 1..]));
  }

  /** Visiting position j: its block is kept exactly when marked. */
  lemma KeptStep(h: Heap, ring: seq<Addr>, j: nat)
    requires AllIn(h, ring) && j < |ring|
    ensures Kept(h, ring[j..]) == (if Marked(h, ring[j]) then [ring[j]] else []) + Kept(h, ring[j + 1..])
  {
    assert ring[j..][0] == ring[j] && ring[j..][1..] == ring[j + 1..];
  }

  lemma PrefixStep(s: seq<Addr>, j: nat, t: seq<Addr>)
    requires j < |s|
    ensures s[..j + 1] + t == s[..j] + ([s[j]] + t)
  {
    assert s[..j + 1] == s[..j] + [s[j]];
  }

  lemma UsedFree(h: Heap, j: nat, h1: Heap, h': Heap)
    requires AllIn(h, h.used) && AllIn(h, h.free) && Distinct(h.used) && 1 <= j < |h.used| && !Marked(h, h.used[j])
    requires FreedAt(h, j, h1) && AllIn(h', h'.used) && UsedAfter(h1, j, h')
    ensures UsedAfter(h, j, h')
  {
    var p := h.used[j];
    assert h1.used[0] == h.used[0];
    assert h1.used[j..] == h.used[j + 1..] && h1.used[..j] == h.used[..j];
    KeptFrame(h, j, h1);
    KeptStep(h, h.used, j);
  }

  lemma {:induction false} SweepFromUsed(h: Heap, j: nat)
    requires Valid(h) && 1 <= j <= |h.used| && KeptClear(h, j)
    ensures UsedAfter(h, j, SweepFrom(h, j))
    decreases |h.used| - j, 1
  {
    if j == |h.used| {
      UsedAnchor(h);
    } else if Marked(h, h.used[j]) {
      KeepUsed(h, j);
    } else {
      FreeUsed(h, j);
    }
  }

  /** Clearing the mark of the block at position j extends the run of unmarked blocks before the cursor past j. */
  lemma KeptClearStep(h: Heap, j: nat, h1: Heap)
    requires AllIn(h, h.used) && AllIn(h, h.free) && j < |h.used| && KeptClear(h, j)
    requires ClearedAt(h, j, h1) && !Marked(h1, h.used[j])
    ensures AllIn(h1, h1.used) && KeptClear(h1, j + 1)
  {
    forall m | 0 <= m < |h1.used|
      ensures h1.used[m] in h1.hdr
    {
      assert m != j ==> h1.hdr[h.used[m]] == h.hdr[h.used[m]];
    }
  }

  lemma {:induction false} KeepUsed(h: Heap, j: nat)
    requires Valid(h) && 1 <= j < |h.used| && KeptClear(h, j) && Marked(h, h.used[j])
    ensures UsedAfter(h, j, SweepFrom(h, j))
    decreases |h.used| - j, 0
  {
    var h1 := SweepKeepStep(h, j);
    var k := j + 1;
    KeptClearStep(h, j, h1);
    SweepFromUsed(h1, k);
    UsedKeep(h, j, h1, SweepFrom(h1, k));
  }

  lemma {:induction false} FreeUsed(h: Heap, j: nat)
    requires Valid(h) && 1 <= j < |h.used| && KeptClear(h, j) && !Marked(h, h.used[j])
    ensures UsedAfter(h, j, SweepFrom(h, j))
    decreases |h.used| - j, 0
  {
    var h1 := SweepFreeStep(h, j);
    forall k | 1 <= k < j
      ensures h1.used[k] == h.used[k]
    {
    }
    SweepFromUsed(h1, j);
    UsedFree(h, j, h1, SweepFrom(h1, j));
  }

  /** The used ring after the sweep, as a function of the marks the scan left. */
  function Survivors(h: Heap): seq<Addr>
    requires AllIn(h, h.used) && |h.used| > 0
  {
    if Marked(h, h.used[0]) then [h.used[0]] + Kept(h, h.used[1..]) else []
  }

  /** The units the sweep frees: those of the unmarked blocks of the used ring. */
  function FreedUnits(m: Heap): nat
    requires Valid(m) && |m.used| > 0
  {
    SweptSize(m, Visit(m.used, 1))
  }

  /** The bytes the sweep frees. */
  function FreedBytes(m: Heap): set<Addr>
    requires Valid(m) && |m.used| > 0
  {
    SweptBytes(m, Visit(m.used, 1))
  }

  /**
   The sweep loop of muncher_collect, from the block after usedp round to
   usedp: what is left of the used ring is the survivors of the marks, none
   of them marked any more.
   */
  function Sweep(m: Heap): (h': Heap)
    requires Valid(m) && |m.used| > 0
    ensures Valid(h') && h'.brk == m.brk && h'.initted == m.initted
    ensures h'.used == Survivors(m) && Unmarked(h')
  {
    SweepFromUsed(m, 1);
    assert m.used[..1] == [m.used[0]];
    SweepFrom(m, 1)
  }

  /**
   The sweep keeps exactly the marked blocks, with their marks cleared,
   provided usedp is one of them, and drops the used ring otherwise;
   used_memory falls by the units it frees, and the free ring gains exactly
   those units and their bytes.
   */
  lemma SweepSpec(m: Heap)
    requires Valid(m) && |m.used| > 0
    ensures var h' := Sweep(m);
            && h'.used == Survivors(m) && Unmarked(h')
            && h'.usedMemory == m.usedMemory - FreedUnits(m)
            && SizeSum(h', h'.free) == SizeSum(m, m.free) + FreedUnits(m)
            && Units(h', h'.free) == Units(m, m.free) + FreedBytes(m)
  {
    SweepFromAccounts(m, 1);
  }

  /** The mark phase of muncher_collect: the data segment, then the stack, then the heap. */
  function MarkPhase(h: Heap, mem: Memory, data: seq<int>, stack: seq<int>): (m: Heap)
    requires Valid(h) && |h.used| > 0
    ensures Valid(m) && SameBlocks(h, m) && MarksGrow(h, m)
  {
    var m := ScanHeap(ScanRegion(ScanRegion(h, data), stack), mem);
    MarksOnly(h, m);
    m
  }

  /**
   muncher_collect. `data` and `stack` are the words of the data segment
   and of the stack between the current frame and its recorded bottom;
   `mem` is the memory image the heap scan reads.
   */
  function Collect(h: Heap, mem: Memory, data: seq<int>, stack: seq<int>): (h': Heap)
    requires Valid(h)
    ensures Valid(h') && Unmarked(h')
    ensures h.used == [] ==> h' == h
  {
    if h.used == [] then h
    else
      var m := MarkPhase(h, mem, data, stack);
      SweepSpec(m);
      Sweep(m)
  }

  /**
   A collection of a non-empty used ring is the sweep of the marks the mark
   phase left: survivors, used_memory and the free ring's units and bytes
   are as SweepSpec states, measured from the state before the collection.
   */
  lemma CollectSweeps(h: Heap, mem: Memory, data: seq<int>, stack: seq<int>)
    requires Valid(h) && |h.used| > 0
    ensures var m := MarkPhase(h, mem, data, stack);
            var h' := Collect(h, mem, data, stack);
            && h'.used == Survivors(m)
            && h'.usedMemory == h.usedMemory - FreedUnits(m)
            && SizeSum(h', h'.free) == SizeSum(h, h.free) + FreedUnits(m)
            && Units(h', h'.free) == Units(h, h.free) + FreedBytes(m)
  {
    var m := MarkPhase(h, mem, data, stack);
    SweepSpec(m);
    MarksOnly(h, m);
    assert Collect(h, mem, data, stack) == Sweep(m);
  }

  /**
   A heap whose topmost free block ends at the break: base, and one free
   block of 4 units at address 16 whose end, 80, is the break.
   */
  function TopFreeHeap(): (h: Heap)
    ensures Valid(h) && Unmarked(h)
    ensures |h.free| == 2 && End(h.free[1], Size(h, h.free[1])) == h.brk
  {
    Heap(map[Base := Header(0, false), 16 := Header(4, false)], [Base, 16], 0, [], 0, 80, true)
  }

  /**
   munch_alloc hands out the tail of the topmost free block, so the granted
   block ends at the break. Once it is marked, the payload scan of it reads
   the word at the break, outside the heap.
   */
  lemma PayloadOverrunExample(mem: Memory)
    ensures var h := TopFreeHeap();
            var r := Allocator.MunchAlloc(h, 16, []);
            && r.ptr == Some(64) && r.heap.used == [48] && r.heap.brk == h.brk
            && End(48, Size(r.heap, 48)) == r.heap.brk
            && Payload(mem, 48, Size(r.heap, 48))[2] == Word(mem, r.heap.brk)
  {
    var h := TopFreeHeap();
    assert Allocator.NumUnitsAsWritten(16) == 2;
    var c := Allocator.Carve(h, 0, 2);
    assert c.block == 48 && c.heap.hdr[48] == Header(2, false) && c.heap.used == [];
    var g := Allocator.Take(h, 0, 2);
    assert g == Allocator.Grant(Allocator.UsedInsert(c.heap, 48), 48);
    assert g.heap.hdr[48].size == 2 && g.heap.brk == 80;
    var a := Allocator.AllocFrom(h, 2, [], 0);
    assert a == Allocator.Alloc(g.heap, Some(48), 0);
    var r := Allocator.MunchAlloc(h, 16, []);
    assert r == Allocator.Alloc(a.heap.(usedMemory := 16), Some(64), 0);
    PayloadPastBreak(r.heap, mem, 48, Word(mem, r.heap.brk));
  }
}

=== FILE: freelist.dfy ===
/**
 The free ring of muncher.c: address-ordered insertion with boundary-tag
 coalescing (add_to_free_list, in the style of K&R's free).
 */
module FreeList {
  import opened Blocks

  /**
   Reference definition of the slot a freed block belongs in: the last ring
   entry below `bp`. On an address-ordered ring every later entry lies at or
   above `bp`.
   */
  function PredIndex(ring: seq<Addr>, bp: Addr): (i: nat)
    requires |ring| > 0 && ring[0] < bp
    ensures i < |ring| && ring[i] < bp
    ensures forall j :: i < j < |ring| ==> bp <= ring[j]
  {
    if ring[|ring| - 1] < bp then |ring| - 1 else PredIndex(ring[..|ring| - 1], bp)
  }

  /**
   The search loop of add_to_free_list: starting at freep, walk the ring
   until bp lies strictly between p and p->next, or p is the wrap point and
   bp lies beyond either end. It stops exactly at the reference slot.
   */
  method FindSlot(h: Heap, bp: Addr) returns (k: nat)
    requires FreeRingOk(h)
    requires Base < bp && bp !in h.free
    ensures k == PredIndex(h.free, bp)
  {
    var ring := h.free;
    var n := |ring|;
    ghost var i := PredIndex(ring, bp);
    k := h.cursor;
    while !(bp > ring[k] && bp < ring[Succ(k, n)])
      invariant k < n
      decreases if k <= i then i - k else n - k + i
    {
      if ring[k] >= ring[Succ(k, n)] && (bp > ring[k] || bp < ring[Succ(k, n)]) {
        assert k == n - 1;
        break;
      }
      assert k != i;
      k := Succ(k, n);
    }
    assert k == i;
  }

  /** The block at `x` swallows the block at `y`, which starts where `x` ends. */
  function Absorb(m: map<Addr, Header>, x: Addr, y: Addr): (m': map<Addr, Header>)
    requires x in m && y in m
    ensures m'.Keys == m.Keys - {y} + {x}
  {
    (m - {y})[x := Header(m[x].size + m[y].size, false)]
  }

  /**
   The free ring after `bp` is linked in after position i: the entry after
   i leaves when bp swallowed it (`over`), and bp itself leaves again when
   the entry at i swallowed it (`gone`).
   */
  function Splice(ring: seq<Addr>, i: nat, bp: Addr, over: bool, gone: bool): (r: seq<Addr>)
    requires i < |ring| && (over ==> i + 1 < |ring|)
    ensures |r| == |ring| + 1 - (if over then 1 else 0) - (if gone then 1 else 0)
    ensures forall j :: 0 <= j <= i ==> r[j] == ring[j]
  {
    ring[..i + 1] + (if gone then [] else [bp]) + ring[(if over then i + 2 else i + 1)..]
  }

  lemma SpliceMembers(ring: seq<Addr>, i: nat, bp: Addr, over: bool, gone: bool)
    requires i < |ring| && (over ==> i + 1 < |ring|)
    requires Distinct(ring) && bp !in ring
    ensures Distinct(Splice(ring, i, bp, over, gone))
    ensures forall a :: a in Splice(ring, i, bp, over, gone) <==>
                          (a in ring && !(over && a == ring[i + 1])) || (a == bp && !gone)
  {
    var k := if over then i + 2 else i + 1;
    assert ring == ring[..i + 1] + ring[i + 1..k] + ring[k..];
  }

  /** A position after the linked-in block holds an old ring entry, shifted. */
  lemma SpliceAt(ring: seq<Addr>, i: nat, bp: Addr, over: bool, gone: bool, j: nat)
    requires i < |ring| && (over ==> i + 1 < |ring|)
    requires i + (if gone then 1 else 2) <= j < |Splice(ring, i, bp, over, gone)|
    ensures Splice(ring, i, bp, over, gone)[j] == ring[j - (if gone then 0 else 1) + (if over then 1 else 0)]
  {
  }

  /** SpliceAt with the old position named. */
  lemma SpliceShift(ring: seq<Addr>, i: nat, bp: Addr, over: bool, gone: bool, j: nat, k: int)
    requires i < |ring| && (over ==> i + 1 < |ring|)
    requires i + (if gone then 1 else 2) <= j < |Splice(ring, i, bp, over, gone)|
    requires k == j - (if gone then 0 else 1) + (if over then 1 else 0)
    ensures 0 <= k < |ring| && Splice(ring, i, bp, over, gone)[j] == ring[k]
  {
    SpliceAt(ring, i, bp, over, gone, j);
  }

  /** The entries the splice writes after position i. */
  lemma SpliceWindow(ring: seq<Addr>, i: nat, bp: Addr, over: bool, gone: bool)
    requires i < |ring| && (over ==> i + 1 < |ring|)
    ensures i + (if gone then 1 else 2) <= |Splice(ring, i, bp, over, gone)|
    ensures Splice(ring, i, bp, over, gone)[i..i + (if gone then 1 else 2)] == if gone then [ring[i]] else [ring[i], bp]
  {
  }

  /** Outside the window the splice keeps the old entries. */
  lemma SpliceParts(ring: seq<Addr>, i: nat, bp: Addr, over: bool, gone: bool)
    requires i < |ring| && (over ==> i + 1 < |ring|)
    ensures i + (if gone then 1 else 2) <= |Splice(ring, i, bp, over, gone)|
    ensures Splice(ring, i, bp, over, gone)[..i] == ring[..i]
    ensures Splice(ring, i, bp, over, gone)[i + (if gone then 1 else 2)..] == ring[(if over then i + 2 else i + 1)..]
  {
  }

  /** bp, unless swallowed, sits right after its slot. */
  lemma SpliceBlock(ring: seq<Addr>, i: nat, bp: Addr, over: bool, gone: bool)
    requires i < |ring| && (over ==> i + 1 < |ring|) && !gone
    ensures Splice(ring, i, bp, over, gone)[i + 1] == bp
  {
  }

  lemma SpliceAscending(ring: seq<Addr>, i: nat, bp: Addr, over: bool, gone: bool)
    requires i < |ring| && (over ==> i + 1 < |ring|)
    requires Ascending(ring) && ring[i] < bp && (i + 1 < |ring| ==> bp < ring[i + 1])
    ensures Ascending(Splice(ring, i, bp, over, gone))
  {
  }

  /** The entry after which `bp` is inserted: freep's stopping point p. */
  function Slot(h: Heap, bp: Addr): Addr
    requires FreeRingOk(h) && Base < bp
  {
    h.free[PredIndex(h.free, bp)]
  }

  /** p->next at the moment bp is inserted. */
  function After(h: Heap, bp: Addr): Addr
    requires FreeRingOk(h) && Base < bp
  {
    h.free[Succ(PredIndex(h.free, bp), |h.free|)]
  }

  /** bp + bp->size == p->next: bp touches its successor. */
  predicate TouchesAfter(h: Heap, bp: Addr)
    requires FreeRingOk(h) && Base < bp && bp in h.hdr
  {
    End(bp, Size(h, bp)) == After(h, bp)
  }

  /** p + p->size == bp: the predecessor touches bp. */
  predicate TouchesBefore(h: Heap, bp: Addr)
    requires FreeRingOk(h) && Base < bp
  {
    End(Slot(h, bp), Size(h, Slot(h, bp))) == bp
  }

  /**
   add_to_free_list: insert `bp` after its slot p, first merging p->next
   into bp when they touch, then merging bp into p when they touch; freep
   is left at p.
   */
  function AddToFreeList(h: Heap, bp: Addr): (h': Heap)
    requires FreeRingOk(h)
    requires bp in h.hdr && Base < bp && bp !in h.free
    ensures h'.used == h.used && h'.usedMemory == h.usedMemory
    ensures h'.brk == h.brk && h'.initted == h.initted
    ensures h'.cursor < |h'.free| && h'.free[h'.cursor] == Slot(h, bp)
    ensures forall a :: a in h.hdr && a != bp && a !in h.free ==> a in h'.hdr && h'.hdr[a] == h.hdr[a]
  {
    var n := |h.free|;
    var i := PredIndex(h.free, bp);
    var p := h.free[i];
    var q := h.free[Succ(i, n)];
    // bp + bp->size == p->next: bp swallows p->next and takes over its place in the ring
    var right := End(bp, Size(h, bp)) == q;
    var hdr1 := if right then Absorb(h.hdr, bp, q) else h.hdr[bp := Header(Size(h, bp), false)];
    // p + p->size == bp: p swallows bp, which leaves the ring again
    var left := End(p, Size(h, p)) == bp;
    var hdr2 := if left then Absorb(hdr1, p, bp) else hdr1;
    h.(hdr := hdr2, free := Splice(h.free, i, bp, right, left), cursor := i)
  }

  /** Absorbing keeps every block of a ring other than the two merged ones. */
  lemma AbsorbBlocksOk(h: Heap, x: Addr, y: Addr)
    requires BlocksOk(h) && x in h.hdr && y in h.hdr && y != Base
    requires End(x, Size(h, x)) == y
    ensures BlocksOk(h.(hdr := Absorb(h.hdr, x, y)))
  {
  }

  /** The header map add_to_free_list leaves behind stays well formed. */
  lemma AddToFreeListBlocks(h: Heap, bp: Addr)
    requires FreeRingOk(h) && BlocksOk(h) && bp in h.hdr && bp != Base && bp !in h.free
    ensures Base < bp
    ensures BlocksOk(AddToFreeList(h, bp))
  {
    var n := |h.free|;
    var i := PredIndex(h.free, bp);
    var p := h.free[i];
    var q := h.free[Succ(i, n)];
    var right := End(bp, Size(h, bp)) == q;
    var left := End(p, Size(h, p)) == bp;
    var h1 := h.(hdr := if right then Absorb(h.hdr, bp, q) else h.hdr[bp := Header(Size(h, bp), false)]);
    if right {
      AbsorbBlocksOk(h, bp, q);
    }
    assert BlocksOk(h1);
    if left {
      AbsorbBlocksOk(h1, p, bp);
    }
  }

  /**
   Which blocks are free afterwards: the old free blocks, less p->next when
   bp swallowed it, plus bp unless p swallowed it.
   */
  lemma AddToFreeListMembers(h: Heap, bp: Addr)
    requires FreeRingOk(h) && bp in h.hdr && Base < bp && bp !in h.free
    ensures Distinct(AddToFreeList(h, bp).free)
    ensures forall a :: a in AddToFreeList(h, bp).free <==>
                          (a in h.free && !(a == After(h, bp) && TouchesAfter(h, bp))) || (a == bp && !TouchesBefore(h, bp))
  {
    var i := PredIndex(h.free, bp);
    assert TouchesAfter(h, bp) ==> Succ(i, |h.free|) == i + 1;
    SpliceMembers(h.free, i, bp, TouchesAfter(h, bp), TouchesBefore(h, bp));
  }

  /** Which headers remain: all, less p->next when bp swallowed it and less bp when p swallowed it. */
  lemma AddToFreeListKeys(h: Heap, bp: Addr)
    requires FreeRingOk(h) && bp in h.hdr && Base < bp && bp !in h.free
    ensures AddToFreeList(h, bp).hdr.Keys ==
              h.hdr.Keys - (if TouchesAfter(h, bp) then {After(h, bp)} else {}) - (if TouchesBefore(h, bp) then {bp} else {})
  {
    var n := |h.free|;
    var i := PredIndex(h.free, bp);
    var p := h.free[i];
    var q := h.free[Succ(i, n)];
    assert p != bp && q != bp;
  }

  /** Every entry of the new free ring heads a block. */
  lemma AddToFreeListAllIn(h: Heap, bp: Addr)
    requires FreeRingOk(h) && bp in h.hdr && Base < bp && bp !in h.free
    ensures AllIn(AddToFreeList(h, bp), AddToFreeList(h, bp).free)
  {
    var h' := AddToFreeList(h, bp);
    AddToFreeListMembers(h, bp);
    AddToFreeListKeys(h, bp);
    forall k | 0 <= k < |h'.free|
      ensures h'.free[k] in h'.hdr
    {
      var a := h'.free[k];
      assert a in h'.free;
      if a != bp {
        var j :| 0 <= j < |h.free| && h.free[j] == a;
      }
    }
  }

  /** The ring add_to_free_list leaves behind stays address ordered, starting at base. */
  lemma AddToFreeListRing(h: Heap, bp: Addr)
    requires FreeRingOk(h) && bp in h.hdr && Base < bp && bp !in h.free
    ensures FreeRingOk(AddToFreeList(h, bp))
  {
    var i := PredIndex(h.free, bp);
    assert TouchesAfter(h, bp) ==> Succ(i, |h.free|) == i + 1;
    SpliceAscending(h.free, i, bp, TouchesAfter(h, bp), TouchesBefore(h, bp));
    AddToFreeListAllIn(h, bp);
  }

  /** The sizes add_to_free_list leaves: the two boundary-tag merges, and nothing else changes. */
  lemma AddToFreeListSizes(h: Heap, bp: Addr)
    requires FreeRingOk(h) && bp in h.hdr && Base < bp && bp !in h.free
    ensures var h' := AddToFreeList(h, bp);
            var p, q := Slot(h, bp), After(h, bp);
            && (TouchesBefore(h, bp) ==>
                  p in h'.hdr && Size(h', p) == Size(h, p) + Size(h, bp) + (if TouchesAfter(h, bp) then Size(h, q) else 0))
            && (!TouchesBefore(h, bp) ==>
                  bp in h'.hdr && Size(h', bp) == Size(h, bp) + (if TouchesAfter(h, bp) then Size(h, q) else 0))
            && (forall a :: a in h.hdr && a != bp && !(a == p && TouchesBefore(h, bp)) && !(a == q && TouchesAfter(h, bp)) ==>
                  a in h'.hdr && Size(h', a) == Size(h, a))
  {
    var n := |h.free|;
    var i := PredIndex(h.free, bp);
    var p := h.free[i];
    var q := h.free[Succ(i, n)];
    assert p != bp && q != bp;
  }

  /** The freed block lies in the gap between its slot and the slot's successor. */
  predicate FitsGap(h: Heap, bp: Addr)
    requires FreeRingOk(h) && bp in h.hdr && Base < bp
  {
    var i := PredIndex(h.free, bp);
    && End(h.free[i], Size(h, h.free[i])) <= bp
    && (i + 1 < |h.free| ==> End(bp, Size(h, bp)) <= h.free[i + 1])
  }

  lemma BlocksFitGap(h: Heap, bp: Addr)
    requires FreeRingOk(h) && BlocksOk(h) && bp in h.hdr && bp != Base && bp !in h.free
    ensures Base < bp && FitsGap(h, bp)
  {
    var i := PredIndex(h.free, bp);
    if i + 1 < |h.free| {
      assert bp < h.free[i + 1];
    }
  }

  /** The end of the run bp heads once it has swallowed its successor (or not). */
  function RunEnd(h: Heap, bp: Addr): Addr
    requires FreeRingOk(h) && bp in h.hdr && Base < bp
  {
    if TouchesAfter(h, bp) then End(After(h, bp), Size(h, After(h, bp))) else End(bp, Size(h, bp))
  }

  /** Position of the first old ring entry that follows bp's run in the new ring. */
  function Resume(h: Heap, bp: Addr): nat
    requires FreeRingOk(h) && bp in h.hdr && Base < bp
  {
    PredIndex(h.free, bp) + (if TouchesAfter(h, bp) then 2 else 1)
  }

  lemma RunEndBeforeResume(h: Heap, bp: Addr)
    requires FreeRingOk(h) && Coalesced(h) && bp in h.hdr && Base < bp && bp !in h.free
    requires FitsGap(h, bp)
    ensures TouchesAfter(h, bp) ==> Succ(PredIndex(h.free, bp), |h.free|) == PredIndex(h.free, bp) + 1
    ensures Resume(h, bp) < |h.free| ==> RunEnd(h, bp) < h.free[Resume(h, bp)]
  {
    var i := PredIndex(h.free, bp);
    if Resume(h, bp) < |h.free| && !TouchesAfter(h, bp) {
      assert bp < h.free[i + 1];
    }
  }

  /** Neighbours before the slot keep their sizes and their gaps. */
  lemma CoalescedBefore(h: Heap, bp: Addr, j: nat)
    requires FreeRingOk(h) && Coalesced(h) && bp in h.hdr && Base < bp && bp !in h.free
    requires j < PredIndex(h.free, bp)
    ensures AllIn(AddToFreeList(h, bp), AddToFreeList(h, bp).free)
    ensures var h' := AddToFreeList(h, bp);
            End(h'.free[j], h'.hdr[h'.free[j]].size) < h'.free[j + 1]
  {
    var h' := AddToFreeList(h, bp);
    AddToFreeListAllIn(h, bp);
    AddToFreeListSizes(h, bp);
    var i := PredIndex(h.free, bp);
    var q := After(h, bp);
    assert TouchesAfter(h, bp) ==> Succ(i, |h.free|) == i + 1;
    assert h'.free[j] == h.free[j] && h'.free[j + 1] == h.free[j + 1];
    assert h.free[j] < h.free[i] && (TouchesAfter(h, bp) ==> h.free[j] < q) && h.free[j] != bp;
  }

  /** The slot p and whatever now follows it do not touch. */
  lemma CoalescedAtSlot(h: Heap, bp: Addr)
    requires FreeRingOk(h) && Coalesced(h) && bp in h.hdr && Base < bp && bp !in h.free
    requires FitsGap(h, bp)
    requires PredIndex(h.free, bp) + 1 < |AddToFreeList(h, bp).free|
    ensures AllIn(AddToFreeList(h, bp), AddToFreeList(h, bp).free)
    ensures var h' := AddToFreeList(h, bp);
            var i := PredIndex(h.free, bp);
            End(h'.free[i], h'.hdr[h'.free[i]].size) < h'.free[i + 1]
  {
    AddToFreeListAllIn(h, bp);
    AddToFreeListSizes(h, bp);
    RunEndBeforeResume(h, bp);
    var i := PredIndex(h.free, bp);
    if TouchesBefore(h, bp) {
      SpliceAt(h.free, i, bp, TouchesAfter(h, bp), true, i + 1);
    } else {
      SpliceBlock(h.free, i, bp, TouchesAfter(h, bp), false);
    }
  }

  /** bp, when it stays in the ring, does not touch what follows it. */
  lemma CoalescedAtBlock(h: Heap, bp: Addr)
    requires FreeRingOk(h) && Coalesced(h) && bp in h.hdr && Base < bp && bp !in h.free
    requires FitsGap(h, bp) && !TouchesBefore(h, bp)
    requires PredIndex(h.free, bp) + 2 < |AddToFreeList(h, bp).free|
    ensures AllIn(AddToFreeList(h, bp), AddToFreeList(h, bp).free)
    ensures var h' := AddToFreeList(h, bp);
            var i := PredIndex(h.free, bp);
            End(h'.free[i + 1], h'.hdr[h'.free[i + 1]].size) < h'.free[i + 2]
  {
    AddToFreeListAllIn(h, bp);
    AddToFreeListSizes(h, bp);
    RunEndBeforeResume(h, bp);
    var i := PredIndex(h.free, bp);
    SpliceBlock(h.free, i, bp, TouchesAfter(h, bp), false);
    SpliceAt(h.free, i, bp, TouchesAfter(h, bp), false, i + 2);
  }

  /** An old ring entry beyond bp's run keeps its header. */
  lemma KeptBeyond(h: Heap, bp: Addr, jj: nat)
    requires FreeRingOk(h) && bp in h.hdr && Base < bp && bp !in h.free
    requires Resume(h, bp) <= jj < |h.free|
    ensures h.free[jj] in AddToFreeList(h, bp).hdr
    ensures AddToFreeList(h, bp).hdr[h.free[jj]].size == Size(h, h.free[jj])
  {
    var i := PredIndex(h.free, bp);
    var a := h.free[jj];
    assert h.free[i] < a;
    assert TouchesAfter(h, bp) ==> Succ(i, |h.free|) == i + 1 && h.free[i + 1] < a;
    assert a in h.free;
  }

  /** Neighbours after bp's run are old neighbours with their old sizes. */
  lemma CoalescedBeyond(h: Heap, bp: Addr, j: nat)
    requires FreeRingOk(h) && Coalesced(h) && bp in h.hdr && Base < bp && bp !in h.free
    requires PredIndex(h.free, bp) + (if TouchesBefore(h, bp) then 1 else 2) <= j < |AddToFreeList(h, bp).free| - 1
    ensures AllIn(AddToFreeList(h, bp), AddToFreeList(h, bp).free)
    ensures var h' := AddToFreeList(h, bp);
            End(h'.free[j], h'.hdr[h'.free[j]].size) < h'.free[j + 1]
  {
    AddToFreeListAllIn(h, bp);
    AddToFreeListSplice(h, bp);
    var jj := SpliceBeyond(h.free, PredIndex(h.free, bp), bp, TouchesAfter(h, bp), TouchesBefore(h, bp), j);
    KeptBeyond(h, bp, jj);
    GapKept(h, AddToFreeList(h, bp), jj, j);
  }

  /** The free ring add_to_free_list leaves is the splice at bp's slot. */
  lemma AddToFreeListSplice(h: Heap, bp: Addr)
    requires FreeRingOk(h) && bp in h.hdr && Base < bp && bp !in h.free
    ensures var i := PredIndex(h.free, bp);
            && i < |h.free| && (TouchesAfter(h, bp) ==> i + 1 < |h.free|)
            && AddToFreeList(h, bp).free == Splice(h.free, i, bp, TouchesAfter(h, bp), TouchesBefore(h, bp))
  {
    var i := PredIndex(h.free, bp);
    assert TouchesAfter(h, bp) ==> Succ(i, |h.free|) == i + 1;
  }

  /** Where the entries at positions j and j + 1 past the written window sat before the splice. */
  lemma SpliceBeyond(ring: seq<Addr>, i: nat, bp: Addr, over: bool, gone: bool, j: nat) returns (jj: nat)
    requires i < |ring| && (over ==> i + 1 < |ring|)
    requires i + (if gone then 1 else 2) <= j < |Splice(ring, i, bp, over, gone)| - 1
    ensures i + (if over then 2 else 1) <= jj && jj + 1 < |ring|
    ensures var r := Splice(ring, i, bp, over, gone);
            r[j] == ring[jj] && r[j + 1] == ring[jj + 1]
  {
    jj := j - (if gone then 0 else 1) + (if over then 1 else 0);
    var j1, jj1 := j + 1, jj + 1;
    SpliceShift(ring, i, bp, over, gone, j, jj);
    SpliceShift(ring, i, bp, over, gone, j1, jj1);
  }

  /** A gap between old ring neighbours survives when both reappear as neighbours and the first keeps its size. */
  lemma GapKept(h: Heap, h': Heap, jj: nat, j: nat)
    requires AllIn(h, h.free) && Coalesced(h) && AllIn(h', h'.free)
    requires jj + 1 < |h.free| && j + 1 < |h'.free|
    requires h'.free[j] == h.free[jj] && h'.free[j + 1] == h.free[jj + 1]
    requires h'.hdr[h.free[jj]].size == h.hdr[h.free[jj]].size
    ensures End(h'.free[j], h'.hdr[h'.free[j]].size) < h'.free[j + 1]
  {
  }

  /** After add_to_free_list no two ring neighbours touch: both merges were taken when due. */
  lemma AddToFreeListCoalesced(h: Heap, bp: Addr)
    requires FreeRingOk(h) && Coalesced(h) && bp in h.hdr && Base < bp && bp !in h.free
    requires FitsGap(h, bp)
    ensures FreeRingOk(AddToFreeList(h, bp))
    ensures Coalesced(AddToFreeList(h, bp))
  {
    var h' := AddToFreeList(h, bp);
    AddToFreeListRing(h, bp);
    var i := PredIndex(h.free, bp);
    forall j | 0 <= j < |h'.free| - 1
      ensures End(h'.free[j], h'.hdr[h'.free[j]].size) < h'.free[j + 1]
    {
      if j < i {
        CoalescedBefore(h, bp, j);
      } else if j == i {
        CoalescedAtSlot(h, bp);
      } else if j == i + 1 && !TouchesBefore(h, bp) {
        CoalescedAtBlock(h, bp);
      } else {
        CoalescedBeyond(h, bp, j);
      }
    }
  }

  /** An old ring entry before the slot keeps its header. */
  lemma KeptBefore(h: Heap, bp: Addr, j: nat)
    requires FreeRingOk(h) && bp in h.hdr && Base < bp && bp !in h.free
    requires j < PredIndex(h.free, bp)
    ensures h.free[j] in AddToFreeList(h, bp).hdr
    ensures AddToFreeList(h, bp).hdr[h.free[j]].size == Size(h, h.free[j])
  {
    var i := PredIndex(h.free, bp);
    var a := h.free[j];
    assert a < h.free[i];
    assert h.free[i] < bp;
    assert TouchesAfter(h, bp) ==> Succ(i, |h.free|) == i + 1 && a < h.free[i + 1];
    assert a in h.free;
  }

  /** A valid heap stays valid when a block that is neither free nor in the used ring is released. */
  lemma AddToFreeListValid(h: Heap, bp: Addr)
    requires Valid(h) && bp in h.hdr && bp != Base && bp !in h.free && bp !in h.used
    ensures Valid(AddToFreeList(h, bp))
  {
    var h' := AddToFreeList(h, bp);
    AddToFreeListBlocks(h, bp);
    BlocksFitGap(h, bp);
    AddToFreeListCoalesced(h, bp);
    AddToFreeListMembers(h, bp);
    forall k | 0 <= k < |h.used|
      ensures h.used[k] in h'.hdr && h.used[k] != Base && h.used[k] !in h'.free
    {
      assert h.used[k] in h.used;
    }
  }

  /** The slot and what follows it, before and after: the window that add_to_free_list rewrites. */
  lemma WindowShape(h: Heap, bp: Addr)
    requires FreeRingOk(h) && bp in h.hdr && Base < bp && bp !in h.free
    ensures var h' := AddToFreeList(h, bp);
            var i, k := PredIndex(h.free, bp), Resume(h, bp);
            var w := i + (if TouchesBefore(h, bp) then 1 else 2);
            && k <= |h.free| && w <= |h'.free|
            && h.free[i..k] == (if TouchesAfter(h, bp) then [Slot(h, bp), After(h, bp)] else [Slot(h, bp)])
            && h'.free[i..w] == (if TouchesBefore(h, bp) then [Slot(h, bp)] else [Slot(h, bp), bp])
  {
    var i := PredIndex(h.free, bp);
    AddToFreeListSplice(h, bp);
    SpliceWindowShape(h.free, i, bp, TouchesAfter(h, bp), TouchesBefore(h, bp));
    assert TouchesAfter(h, bp) ==> Succ(i, |h.free|) == i + 1;
  }

  /** The window of a splice at position i, before and after. */
  lemma SpliceWindowShape(ring: seq<Addr>, i: nat, bp: Addr, over: bool, gone: bool)
    requires i < |ring| && (over ==> i + 1 < |ring|)
    ensures var k, w := i + (if over then 2 else 1), i + (if gone then 1 else 2);
            && k <= |ring| && w <= |Splice(ring, i, bp, over, gone)|
            && ring[i..k] == (if over then [ring[i], ring[i + 1]] else [ring[i]])
            && Splice(ring, i, bp, over, gone)[i..w] == (if gone then [ring[i]] else [ring[i], bp])
  {
    SpliceWindow(ring, i, bp, over, gone);
    if over {
      assert ring[i..i + 2] == [ring[i], ring[i + 1]];
    }
  }

  /** The byte-level effect of the two boundary-tag merges. */
  lemma MergeExtents(p: Addr, sp: nat, bp: Addr, sb: nat, q: Addr, sq: nat, over: bool, gone: bool, sp': nat, sb': nat)
    requires over ==> End(bp, sb) == q
    requires gone ==> End(p, sp) == bp && sp' == sp + sb + (if over then sq else 0)
    requires !gone ==> sp' == sp && sb' == sb + (if over then sq else 0)
    ensures (if gone then Extent(p, sp') else Extent(p, sp') + Extent(bp, sb'))
            == Extent(p, sp) + (if over then Extent(q, sq) else {}) + Extent(bp, sb)
  {
    var sq0 := if over then sq else 0;
    if over {
      ExtentSplit(bp, sb, sq);
    }
    assert Extent(bp, sb + sq0) == Extent(bp, sb) + (if over then Extent(q, sq) else {});
    if gone {
      ExtentSplit(p, sp, sb + sq0);
    }
  }

  /** Within the window, the freed block's bytes join the free bytes, merged or not. */
  lemma WindowUnits(h: Heap, bp: Addr)
    requires FreeRingOk(h) && bp in h.hdr && Base < bp && bp !in h.free
    ensures var h' := AddToFreeList(h, bp);
            var i, k := PredIndex(h.free, bp), Resume(h, bp);
            var w := i + (if TouchesBefore(h, bp) then 1 else 2);
            && k <= |h.free| && w <= |h'.free|
            && AllIn(h, h.free[i..k]) && AllIn(h', h'.free[i..w])
            && Units(h', h'.free[i..w]) == Units(h, h.free[i..k]) + Extent(bp, Size(h, bp))
            && SizeSum(h', h'.free[i..w]) == SizeSum(h, h.free[i..k]) + Size(h, bp)
  {
    var h' := AddToFreeList(h, bp);
    WindowShape(h, bp);
    AddToFreeListSizes(h, bp);
    var p, q := Slot(h, bp), After(h, bp);
    var over, gone := TouchesAfter(h, bp), TouchesBefore(h, bp);
    assert over ==> p != q;
    var sp' := Size(h', p);
    var sb' := if gone then 0 else Size(h', bp);
    MergeExtents(p, Size(h, p), bp, Size(h, bp), q, Size(h, q), over, gone, sp', sb');
    UnitsShort(h, p, q);
    if gone {
      UnitsShort(h', p, p);
    } else {
      UnitsShort(h', p, bp);
    }
  }

  /**
   The free bytes grow by exactly bp's extent, and the free unit count by
   exactly bp's size: coalescing loses and invents nothing.
   */
  lemma AddToFreeListUnits(h: Heap, bp: Addr)
    requires FreeRingOk(h) && bp in h.hdr && Base < bp && bp !in h.free
    ensures AllIn(AddToFreeList(h, bp), AddToFreeList(h, bp).free)
    ensures Units(AddToFreeList(h, bp), AddToFreeList(h, bp).free) == Units(h, h.free) + Extent(bp, Size(h, bp))
    ensures SizeSum(AddToFreeList(h, bp), AddToFreeList(h, bp).free) == SizeSum(h, h.free) + Size(h, bp)
  {
    var h' := AddToFreeList(h, bp);
    AddToFreeListAllIn(h, bp);
    WindowUnits(h, bp);
    var i, k := PredIndex(h.free, bp), Resume(h, bp);
    var w := i + (if TouchesBefore(h, bp) then 1 else 2);
    assert TouchesAfter(h, bp) ==> Succ(i, |h.free|) == i + 1;
    SpliceParts(h.free, i, bp, TouchesAfter(h, bp), TouchesBefore(h, bp));
    FrameBefore(h, bp);
    FrameBeyond(h, bp);
    UnitsReplaceWindow(h, h', h.free, h'.free, i, k, w, Extent(bp, Size(h, bp)), Size(h, bp));
  }

  lemma FrameBefore(h: Heap, bp: Addr)
    requires FreeRingOk(h) && bp in h.hdr && Base < bp && bp !in h.free
    ensures forall t :: 0 <= t < PredIndex(h.free, bp) ==>
              h.free[t] in AddToFreeList(h, bp).hdr && Size(h, h.free[t]) == Size(AddToFreeList(h, bp), h.free[t])
  {
    forall t | 0 <= t < PredIndex(h.free, bp)
      ensures h.free[t] in AddToFreeList(h, bp).hdr && Size(h, h.free[t]) == Size(AddToFreeList(h, bp), h.free[t])
    {
      KeptBefore(h, bp, t);
    }
  }

  lemma FrameBeyond(h: Heap, bp: Addr)
    requires FreeRingOk(h) && bp in h.hdr && Base < bp && bp !in h.free
    ensures Resume(h, bp) <= |h.free|
    ensures forall t :: Resume(h, bp) <= t < |h.free| ==>
              h.free[t] in AddToFreeList(h, bp).hdr && Size(h, h.free[t]) == Size(AddToFreeList(h, bp), h.free[t])
  {
    forall t | Resume(h, bp) <= t < |h.free|
      ensures h.free[t] in AddToFreeList(h, bp).hdr && Size(h, h.free[t]) == Size(AddToFreeList(h, bp), h.free[t])
    {
      KeptBeyond(h, bp, t);
    }
  }
}

=== FILE: marking.dfy ===
/**
 The mark phase of muncher_collect: scan_region marks used blocks from the
 candidate words of a root region, and scan_heap rescans the payload of
 blocks that are already marked for further candidates.

 A candidate word `v` hits the block at `a` when Covers(a, size, v): the
 range starts right past the header and, because `size` already counts the
 header, runs one header past the block's end. The memory the heap scan
 reads is a map from word addresses to word values; a word never written
 reads as zero.
 */
module Marking {
  import opened Blocks

  type Memory = map<Addr, int>

  function Word(mem: Memory, a: Addr): int {
    if a in mem then mem[a] else 0
  }

  /** Only marks may differ: the same blocks with the same sizes, and every other field as it was. */
  predicate SameBlocks(h: Heap, h': Heap) {
    && h'.hdr.Keys == h.hdr.Keys
    && (forall a :: a in h.hdr ==> h'.hdr[a].size == h.hdr[a].size)
    && h' == h.(hdr := h'.hdr)
  }

  /** Marks only go from clear to set. */
  predicate MarksGrow(h: Heap, h': Heap)
    requires h'.hdr.Keys == h.hdr.Keys
  {
    forall a :: a in h.hdr && h.hdr[a].mark ==> h'.hdr[a].mark
  }

  /** The position of the first block of `ring`, in ring order, whose range `v` falls in. */
  function FirstCover(h: Heap, ring: seq<Addr>, v: int): (r: Option<nat>)
    requires AllIn(h, ring)
    ensures r.Some? ==> r.value < |ring| && Covers(ring[r.value], Size(h, ring[r.value]), v)
    ensures r.Some? ==> forall j :: 0 <= j < r.value ==> !Covers(ring[j], Size(h, ring[j]), v)
    ensures r.None? ==> forall j :: 0 <= j < |ring| ==> !Covers(ring[j], Size(h, ring[j]), v)
  {
    if |ring| == 0 then None
    else if Covers(ring[0], Size(h, ring[0]), v) then Some(0)
    else match FirstCover(h, ring[1..], v)
      case None => None
      case Some(k) => Some(k + 1)
  }

  /** `a` is the block of `ring` that the word `v` marks. */
  predicate Hits(h: Heap, ring: seq<Addr>, v: int, a: Addr)
    requires AllIn(h, ring)
  {
    var f := FirstCover(h, ring, v);
    f.Some? && ring[f.value] == a
  }

  /** Which block a word hits depends only on the ring and the sizes of its blocks. */
  lemma {:induction false} FirstCoverFrame(h: Heap, h': Heap, ring: seq<Addr>, v: int)
    requires AllIn(h, ring) && AllIn(h', ring)
    requires forall i :: 0 <= i < |ring| ==> Size(h, ring[i]) == Size(h', ring[i])
    ensures FirstCover(h, ring, v) == FirstCover(h', ring, v)
  {
    if |ring| > 0 {
      FirstCoverFrame(h, h', ring[1..], v);
    }
  }

  function Mark(h: Heap, a: Addr): (h': Heap)
    requires a in h.hdr
    ensures SameBlocks(h, h') && MarksGrow(h, h')
    ensures forall b :: b in h.hdr ==> (h'.hdr[b].mark <==> h.hdr[b].mark || b == a)
  {
    h.(hdr := h.hdr[a := h.hdr[a].(mark := true)])
  }

  /** One candidate word: the first block of `ring` it falls in is marked, and the search stops there. */
  function MarkFirst(h: Heap, ring: seq<Addr>, v: int): (h': Heap)
    requires AllIn(h, ring)
    ensures SameBlocks(h, h') && MarksGrow(h, h')
  {
    match FirstCover(h, ring, v)
    case None => h
    case Some(k) => Mark(h, ring[k])
  }

  /** A word sets at most one mark: the one on the block it hits. */
  lemma MarkFirstMarks(h: Heap, ring: seq<Addr>, v: int)
    requires AllIn(h, ring)
    ensures var h' := MarkFirst(h, ring, v);
            forall a :: a in h.hdr ==> (h'.hdr[a].mark <==> h.hdr[a].mark || Hits(h, ring, v, a))
  {
  }

  /** Every word of `words` in turn, searching `ring` from its first block each time. */
  function MarkAll(h: Heap, ring: seq<Addr>, words: seq<int>): (h': Heap)
    requires AllIn(h, ring)
    ensures SameBlocks(h, h') && MarksGrow(h, h')
    decreases |words|
  {
    if |words| == 0 then h
    else MarkAll(MarkFirst(h, ring, words[0]), ring, words[1..])
  }

  /** After marking from `words`, a block is marked exactly when it was before or some word hits it. */
  lemma {:induction false} MarkAllMarks(h: Heap, ring: seq<Addr>, words: seq<int>)
    requires AllIn(h, ring)
    ensures var h' := MarkAll(h, ring, words);
            forall a :: a in h.hdr ==>
              (h'.hdr[a].mark <==> h.hdr[a].mark || exists k :: 0 <= k < |words| && Hits(h, ring, words[k], a))
    decreases |words|
  {
    if |words| > 0 {
      var h1 := MarkFirst(h, ring, words[0]);
      var h' := MarkAll(h, ring, words);
      assert h' == MarkAll(h1, ring, words[1..]);
      MarkFirstMarks(h, ring, words[0]);
      MarkAllMarks(h1, ring, words[1..]);
      forall k | 0 <= k < |words| - 1
        ensures FirstCover(h1, ring, words[1..][k]) == FirstCover(h, ring, words[k + 1])
      {
        FirstCoverFrame(h1, h, ring, words[k + 1]);
      }
      forall a | a in h.hdr
        ensures h'.hdr[a].mark <==> h.hdr[a].mark || exists k :: 0 <= k < |words| && Hits(h, ring, words[k], a)
      {
        if exists k :: 0 <= k < |words| && Hits(h, ring, words[k], a) {
          var k :| 0 <= k < |words| && Hits(h, ring, words[k], a);
          if k > 0 {
            assert Hits(h1, ring, words[1..][k - 1], a);
          }
        }
        if exists k :: 0 <= k < |words| - 1 && Hits(h1, ring, words[1..][k], a) {
          var k :| 0 <= k < |words| - 1 && Hits(h1, ring, words[1..][k], a);
          assert Hits(h, ring, words[k + 1], a);
        }
      }
    }
  }

  /** scan_region: each candidate word of the region marks the first used block, from usedp, whose range it falls in. */
  function ScanRegion(h: Heap, words: seq<int>): (h': Heap)
    requires AllIn(h, h.used)
    ensures SameBlocks(h, h') && MarksGrow(h, h')
  {
    MarkAll(h, h.used, words)
  }

  /** `a` is in `ring`, `v` falls in its range, and in no range of a block before it. */
  predicate FirstHit(h: Heap, ring: seq<Addr>, v: int, a: Addr)
    requires AllIn(h, ring)
  {
    exists i :: 0 <= i < |ring| && ring[i] == a && Covers(a, Size(h, a), v)
      && forall j :: 0 <= j < i ==> !Covers(ring[j], Size(h, ring[j]), v)
  }

  /** The block a word marks is the first block of the ring whose range holds it. */
  lemma HitsFirst(h: Heap, ring: seq<Addr>, v: int, a: Addr)
    requires AllIn(h, ring)
    ensures Hits(h, ring, v, a) <==> FirstHit(h, ring, v, a)
  {
    var f := FirstCover(h, ring, v);
    if FirstHit(h, ring, v, a) {
      var i :| 0 <= i < |ring| && ring[i] == a && Covers(a, Size(h, a), v)
        && forall j :: 0 <= j < i ==> !Covers(ring[j], Size(h, ring[j]), v);
      assert f == Some(i);
    }
    if Hits(h, ring, v, a) {
      assert ring[f.value] == a;
    }
  }

  /**
   After a region scan a block is marked exactly when it was already marked
   or it is, for some word, the first block in ring order from usedp whose
   range holds that word.
   */
  lemma ScanRegionMarks(h: Heap, words: seq<int>)
    requires AllIn(h, h.used)
    ensures var h' := ScanRegion(h, words);
            forall a :: a in h.hdr ==>
              (h'.hdr[a].mark <==> h.hdr[a].mark || exists k :: 0 <= k < |words| && FirstHit(h, h.used, words[k], a))
  {
    MarkAllMarks(h, h.used, words);
    forall a, k | a in h.hdr && 0 <= k < |words|
      ensures Hits(h, h.used, words[k], a) <==> FirstHit(h, h.used, words[k], a)
    {
      HitsFirst(h, h.used, words[k], a);
    }
  }

  /** Scanning two regions in turn is scanning their concatenation. */
  lemma {:induction false} ScanRegionConcat(h: Heap, w1: seq<int>, w2: seq<int>)
    requires AllIn(h, h.used)
    ensures ScanRegion(ScanRegion(h, w1), w2) == ScanRegion(h, w1 + w2)
    decreases |w1|
  {
    if |w1| > 0 {
      var h1 := MarkFirst(h, h.used, w1[0]);
      assert (w1 + w2)[0] == w1[0] && (w1 + w2)[1..] == w1[1..] + w2;
      ScanRegionConcat(h1, w1[1..], w2);
    } else {
      assert w1 + w2 == w2;
    }
  }

  /** The ring as seen from the block after position i, stopping before position i. */
  function Others(ring: seq<Addr>, i: nat): (r: seq<Addr>)
    requires i < |ring|
    ensures |r| == |ring| - 1
    ensures forall x :: x in r ==> x in ring
    ensures Distinct(ring) ==> ring[i] !in r
  {
    ring[i + 1..] + ring[..i]
  }

  /**
   The words scan_heap reads for a block of `size` units at `a`: as many
   bytes as the block holds, read at every word-aligned address from just
   past the header up to one header past the block's end, in address order.
   */
  function Payload(mem: Memory, a: Addr, size: nat): (ws: seq<int>)
    ensures WordBytes * |ws| == HeaderBytes * size
    ensures forall x :: a + HeaderBytes <= x < End(a, size) + HeaderBytes && (x - a) % WordBytes == 0 ==>
              ws[(x - a - HeaderBytes) / WordBytes] == Word(mem, x)
  {
    seq(2 * size, t => Word(mem, a + HeaderBytes + WordBytes * t))
  }

  /**
   The words the payload scan evidently means to read: the block's payload
   alone, at every word-aligned address from just past the header up to the
   block's end.
   */
  function PayloadIntended(mem: Memory, a: Addr, size: nat): (ws: seq<int>)
    requires 0 < size
    ensures WordBytes * |ws| == HeaderBytes * (size - 1)
    ensures forall x :: a + HeaderBytes <= x < End(a, size) && (x - a) % WordBytes == 0 ==>
              ws[(x - a - HeaderBytes) / WordBytes] == Word(mem, x)
  {
    seq(2 * (size - 1), t => Word(mem, a + HeaderBytes + WordBytes * t))
  }

  /** The scan as written reads the intended payload and then the two words of the header-sized slot just past the block's end. */
  lemma PayloadOverrun(mem: Memory, a: Addr, size: nat)
    requires 0 < size
    ensures Payload(mem, a, size) == PayloadIntended(mem, a, size) + [Word(mem, End(a, size)), Word(mem, End(a, size) + WordBytes)]
  {
    var ws, vs := Payload(mem, a, size), PayloadIntended(mem, a, size);
    assert ws[2 * size - 2] == Word(mem, End(a, size));
    assert ws[2 * size - 1] == Word(mem, End(a, size) + WordBytes);
    assert ws[..2 * size - 2] == vs;
  }

  /**
   As written, the scan of a block that ends at the program break reads the
   word at the break, which lies in no block of the heap: changing only that
   word changes the words scanned.
   */
  lemma PayloadPastBreak(h: Heap, mem: Memory, a: Addr, v: int)
    requires BlocksOk(h) && a in h.hdr && a != Base && End(a, Size(h, a)) == h.brk
    ensures forall b :: b in h.hdr ==> !InBlock(b, Size(h, b), h.brk)
    ensures Payload(mem, a, Size(h, a))[2 * Size(h, a) - 2] == Word(mem, h.brk)
    ensures v != Word(mem, h.brk) ==> Payload(mem[h.brk := v], a, Size(h, a)) != Payload(mem, a, Size(h, a))
  {
    var n := Size(h, a);
    PayloadOverrun(mem, a, n);
    PayloadOverrun(mem[h.brk := v], a, n);
    assert Word(mem[h.brk := v], h.brk) == v;
    if v != Word(mem, h.brk) {
      assert Payload(mem[h.brk := v], a, n)[2 * n - 2] != Payload(mem, a, n)[2 * n - 2];
    }
  }

  /** The intended scan of a heap block reads nothing at or above the break: memories that agree below it give the same words. */
  lemma PayloadIntendedBelowBreak(h: Heap, mem: Memory, mem': Memory, a: Addr)
    requires BlocksOk(h) && a in h.hdr && a != Base
    requires forall x :: a <= x < h.brk ==> Word(mem, x) == Word(mem', x)
    ensures PayloadIntended(mem, a, Size(h, a)) == PayloadIntended(mem', a, Size(h, a))
  {
    var n := Size(h, a);
    var ws, vs := PayloadIntended(mem, a, n), PayloadIntended(mem', a, n);
    forall t | 0 <= t < |ws|
      ensures ws[t] == vs[t]
    {
      var x := a + HeaderBytes + WordBytes * t;
      assert (x - a) % WordBytes == 0 && (x - a - HeaderBytes) / WordBytes == t;
      assert x < h.brk;
    }
  }

  /** Some word of `ws` falls in the range of the block of `size` units at `a`. */
  predicate HitBy(ws: seq<int>, a: Addr, size: nat) {
    exists t :: 0 <= t < |ws| && Covers(a, size, ws[t])
  }

  /**
   One step of scan_heap at the block in position i: a marked block has its
   payload words searched against the other blocks, starting with the one
   after it; an unmarked block is skipped.
   */
  function ScanBlock(h: Heap, mem: Memory, i: nat): (h': Heap)
    requires AllIn(h, h.used) && i < |h.used|
    ensures SameBlocks(h, h') && MarksGrow(h, h')
  {
    var bp := h.used[i];
    if !Marked(h, bp) then h
    else MarkAll(h, Others(h.used, i), Payload(mem, bp, Size(h, bp)))
  }

  /** A block never marks itself, and a mark set in a step is hit by a payload word of the marked block scanned. */
  lemma ScanBlockMarks(h: Heap, mem: Memory, i: nat)
    requires AllIn(h, h.used) && Distinct(h.used) && i < |h.used|
    ensures var h' := ScanBlock(h, mem, i);
            var bp := h.used[i];
            && h'.hdr[bp].mark == h.hdr[bp].mark
            && forall a :: a in h.hdr && h'.hdr[a].mark && !h.hdr[a].mark ==>
                 Marked(h, bp) && a != bp && HitBy(Payload(mem, bp, Size(h, bp)), a, Size(h, a))
  {
    var bp := h.used[i];
    if Marked(h, bp) {
      var ring, ws := Others(h.used, i), Payload(mem, bp, Size(h, bp));
      MarkAllMarks(h, ring, ws);
      forall a | a in h.hdr && ScanBlock(h, mem, i).hdr[a].mark && !h.hdr[a].mark
        ensures a != bp && HitBy(ws, a, Size(h, a))
      {
        var k :| 0 <= k < |ws| && Hits(h, ring, ws[k], a);
        assert a in ring;
      }
    }
  }

  /** scan_heap resumed at position i of the used ring. */
  function ScanFrom(h: Heap, mem: Memory, i: nat): (h': Heap)
    requires AllIn(h, h.used) && 1 <= i <= |h.used|
    ensures SameBlocks(h, h') && MarksGrow(h, h')
    decreases |h.used| - i
  {
    if i == |h.used| then h
    else ScanFrom(ScanBlock(h, mem, i), mem, i + 1)
  }

  /**
   scan_heap: one pass over the used ring starting after usedp and stopping
   when it comes back to usedp, so usedp itself is never a source. Marks set
   during the pass make later blocks sources of the same pass; blocks before
   them are not revisited.
   */
  function ScanHeap(h: Heap, mem: Memory): (h': Heap)
    requires AllIn(h, h.used) && |h.used| > 0
    ensures SameBlocks(h, h') && MarksGrow(h, h')
  {
    ScanFrom(h, mem, 1)
  }

  /** Block `a` owes its mark to the payload of a marked source at position j >= from, other than `a`. */
  predicate Justified(h: Heap, h': Heap, mem: Memory, from: nat, a: Addr)
    requires AllIn(h, h.used) && a in h.hdr && h'.hdr.Keys == h.hdr.Keys
  {
    exists j :: from <= j < |h.used| && h.used[j] != a && h'.hdr[h.used[j]].mark
      && HitBy(Payload(mem, h.used[j], Size(h, h.used[j])), a, Size(h, a))
  }

  lemma {:induction false} ScanFromSound(h: Heap, mem: Memory, i: nat)
    requires AllIn(h, h.used) && Distinct(h.used) && 1 <= i <= |h.used|
    ensures var h' := ScanFrom(h, mem, i);
            forall a :: a in h.hdr && h'.hdr[a].mark && !h.hdr[a].mark ==> Justified(h, h', mem, i, a)
    decreases |h.used| - i
  {
    if i < |h.used| {
      var h1 := ScanBlock(h, mem, i);
      var h' := ScanFrom(h, mem, i);
      assert h' == ScanFrom(h1, mem, i + 1);
      ScanBlockMarks(h, mem, i);
      ScanFromSound(h1, mem, i + 1);
      forall a | a in h.hdr && h'.hdr[a].mark && !h.hdr[a].mark
        ensures Justified(h, h', mem, i, a)
      {
        if h1.hdr[a].mark {
          assert h.used[i] != a && h'.hdr[h.used[i]].mark;
        } else {
          var j :| i + 1 <= j < |h1.used| && h1.used[j] != a && h'.hdr[h1.used[j]].mark
            && HitBy(Payload(mem, h1.used[j], Size(h1, h1.used[j])), a, Size(h1, a));
          assert Size(h1, h.used[j]) == Size(h, h.used[j]) && Size(h1, a) == Size(h, a);
        }
      }
    }
  }

  /**
   Soundness of scan_heap: every mark it sets is justified by a source block
   other than usedp and other than the marked block itself, marked by the
   end of the pass, one of whose scanned words falls in the marked block's
   range.
   */
  lemma ScanHeapSound(h: Heap, mem: Memory)
    requires AllIn(h, h.used) && Distinct(h.used) && |h.used| > 0
    ensures var h' := ScanHeap(h, mem);
            forall a :: a in h.hdr && h'.hdr[a].mark && !h.hdr[a].mark ==> Justified(h, h', mem, 1, a)
  {
    ScanFromSound(h, mem, 1);
  }

  /** With no marked block besides usedp, scan_heap has no source and changes nothing. */
  lemma {:induction false} ScanFromIdle(h: Heap, mem: Memory, i: nat)
    requires AllIn(h, h.used) && 1 <= i <= |h.used|
    requires forall j :: i <= j < |h.used| ==> !Marked(h, h.used[j])
    ensures ScanFrom(h, mem, i) == h
    decreases |h.used| - i
  {
    if i < |h.used| {
      ScanFromIdle(h, mem, i + 1);
    }
  }
}
